=== FILE: README.md ===
# Arcade game logic in Dafny

This project models the per-frame game logic of a small browser arcade with three canvas games:

- a **brick-breaker** (`brickBreaker.js`): a paddle, up to four balls, a wall of 45 coloured bricks, and three capped power-ups;
- a **top-down shooter** (`shooter.js`, repeated as `games.shooter` in `combined.js`): bullets, enemies, explosion particles, a three-minute timer and a ten-second "Continue?" countdown;
- a **typing shooter** (`typingShooter.js`, repeated as `games.typingShooter` in `combined.js`): falling three-letter words that the player types out letter by letter.

Each game is a session record, a Dafny `datatype`, together with pure step functions or short methods. The impure inputs become parameters:

- the canvas size is passed as `W` and `H`;
- `Date.now()` is an integer timestamp `now`;
- `Math.random()` is a stream `rng: nat -> real` and a cursor counting the draws taken, where a frame draws several times; where it draws a fixed number of times it is given those draws directly, as the sequence `draws` for the brick colours and the single value `r` for an enemy's x;
- the paddle's sine and cosine are a caller-supplied function `steer`.

`alert` followed by `document.location.reload()` becomes a terminal phase, after which no frame (`Tick`/`Update`) changes the session any more. This is `GameOver`/`Won` for the brick-breaker and `Ended(win)` for the shooter. The key handlers have no game-over guard, in the source as in the model, so they still set velocities and fire bullets in a terminal phase.

Every pool of the games is updated the same way: a `forEach` whose callback may `splice(index, 1)`. Module `ForEachSplice` models this idiom once.

- `Pass` is a reference definition.
- `Run` is the index loop the source executes. It visits an index only while it is still in the array, and it always advances the index. It tests the live length on every step. `forEach` fixes the length on entry instead, but the two agree here because no callback of these passes pushes onto the array it walks.
- `Run` is proved equal to `Pass`.
- Consequently the element after a removed one is skipped for that pass (`VisitedSkipsExactlyAfterRemoval`), and the model keeps that behaviour.
  - In the typing game, completing a word leaves an identical word right after it on screen untouched (`Typing.TwinWordIsSkipped`).

Modules:

| module | contents |
|---|---|
| `Common` | `Option`, `Math.min`/`Math.max`, the random stream, `Math.floor(r * n)` |
| `Decimal` | `${n}` text of a number and its two-digit padding, with the inverse reading |
| `Geometry` | boxes, the strict overlap test, the clamp into the canvas |
| `ForEachSplice` | the forEach/splice pass: reference definition, loop, and its properties |
| `BrickState` | brick-breaker constants, records, brick grid, session invariant, start state |
| `PowerUps` | `handlePowerUp` |
| `BrickBreaker` | `movePaddle`, `moveBall`, `update`, key handlers |
| `ShooterClock` | the game timer and the countdown, and their texts |
| `Shooter` | the shooter session, its passes, collisions, clocks, keys, `init`, `togglePause` |
| `Typing` | the typing session, spawning, descent, keystrokes, report, `init`, `togglePause` |

## Model

| member | source | states |
|---|---|---|
| Common.Pick | brickBreaker.js:58 | a draw in [0, 1) selects an index below n, namely the floor of r * n |
| Common.Scale | shooter.js:172 | `Math.random() * span` lies in [0, span) |
| Decimal.ValueShow | shooter.js:57 | the decimal text of a number reads back as that number |
| Decimal.Padded | shooter.js:57 | the zero-padded seconds are digits denoting the number, two of them below 100 |
| Geometry.OverlapsSymmetric | shooter.js:198-203 | the bullet/enemy test gives the same answer with the boxes swapped |
| Geometry.TouchingEdgesDoNotOverlap | shooter.js:198-203 | boxes that only share an edge do not collide |
| Geometry.OverlapsIffCommonInterior | shooter.js:198-203 | for boxes of positive size the test holds exactly when some point is inside both |
| Geometry.ClampSpan | shooter.js:92-97 | a span that fits the canvas ends up inside it; a span already inside is not moved |
| ForEachSplice.Splice | shooter.js:113 | `splice(k, 1)` removes exactly the element at k and shifts the rest down; past the end it removes nothing |
| ForEachSplice.SpliceSubset | shooter.js:113 | a splice introduces no element |
| ForEachSplice.Run | shooter.js:109-115 | the in-place loop of forEach with splice leaves exactly the reference result `Pass` and reports the number removed |
| ForEachSplice.PassLength | shooter.js:109-115 | kept and removed elements account for the whole array |
| ForEachSplice.RemovedAtMostHalf | typingShooter.js:105-109 | one pass removes at most every other element, which bounds the words one keystroke completes |
| ForEachSplice.VisitedSkipsExactlyAfterRemoval | typingShooter.js:105-109 | the first element is visited, and an element is skipped exactly when its predecessor was visited and removed |
| ForEachSplice.PassSurvivors | shooter.js:109-131 | every element left is a visited element's new value or an unvisited element unchanged |
| ForEachSplice.PassWithoutRemovals | typingShooter.js:61-66 | a pass that removes nothing updates every element in place |
| BrickState.BrickX | brickBreaker.js:81 | every brick's left edge is at x >= 35, and the bricks of the wall end by x = 745 |
| BrickState.BrickY | brickBreaker.js:82 | every brick's top edge is at y >= 30, and the bricks end by y = 170 |
| BrickState.WallOrder | brickBreaker.js:81-82 | a later column lies further right and a later row further down, with the padding between them |
| BrickState.BricksDoNotOverlap | brickBreaker.js:26-32 | no two of the 45 bricks share an interior point |
| BrickState.DestroyOne | brickBreaker.js:162-163 | knocking out a live brick raises the destroyed count by exactly one |
| BrickState.DestroyedAll | brickBreaker.js:165 | the destroyed count equals the wall size exactly when every brick is destroyed |
| BrickState.GenerateBricks | brickBreaker.js:53-62 | 45 live bricks, each with a palette colour, none destroyed |
| BrickState.Start | brickBreaker.js:4-47 | the page-load state satisfies the session invariant: playing, score 0, three lives |
| PowerUps.HandlePowerUp | brickBreaker.js:175-189 | at most one effect per call. A non-power-up colour or a capped kind changes nothing. Speed raises the first ball's multiplier by 0.5 up to 2. Multi-ball adds a reversed copy of the first ball only below four balls. Longer paddle raises the multiplier by 0.5 up to 2.5. Each applied case changes only its own field and counter, leaving the rest of the session as it was. Counters count even when the multiplier is saturated, and stay within caps |
| PowerUps.BlueIsNoPowerUp | brickBreaker.js:34-39 | the plain blue brick colour has no effect |
| PowerUps.HandlePowerUpValid | brickBreaker.js:175-189 | the session invariant survives a power-up: caps, ball count 1 + multi-balls, at most 4 balls, multipliers in range |
| PowerUps.HandlePowerUpIgnoresPhase | brickBreaker.js:175-189 | the power-up logic is independent of the game phase |
| BrickBreaker.MovePaddle | brickBreaker.js:104-114 | a paddle whose effective width fits the canvas ends inside it; a move that stays inside is applied unchanged |
| BrickBreaker.KeyDown | brickBreaker.js:215-221 | right arrows set dx to +7, left arrows to -7, other keys change nothing |
| BrickBreaker.KeyUp | brickBreaker.js:223-227 | releasing an arrow stops the paddle, other keys change nothing |
| BrickBreaker.KeysKeepValid | brickBreaker.js:215-227 | pressing or releasing any key keeps the session invariant and the phase, in every phase |
| BrickBreaker.NormalizedOffset | brickBreaker.js:139-145 | under the strict paddle test the normalised collide point is strictly inside (-1, 1), zero exactly at the centre, negative exactly left of it |
| BrickBreaker.DivideWithin | brickBreaker.js:145 | a value strictly inside (-d, d) divided by d > 0 is strictly inside (-1, 1) with the same sign |
| BrickBreaker.FloorExit | brickBreaker.js:128-137 | a life is lost. At zero lives the game is over. Otherwise the ball relaunches from (W/2, H-40) and the paddle re-centres at the base width |
| BrickBreaker.PaddleBounce | brickBreaker.js:139-150 | a ball that passes the paddle test leaves with speed 4 in the direction steered by its offset, which is in (-1, 1); otherwise nothing changes |
| BrickBreaker.HitBrick | brickBreaker.js:154-168 | only a live brick containing the ball's centre is hit. The hit destroys it for good, flips dy, scores one and fires the power-up of the brick's colour, and the game is won exactly when the score reaches 45. No other brick changes |
| BrickBreaker.KnockValid | brickBreaker.js:161-165 | destroying a live brick, turning the ball and scoring keeps the invariant, with the phase Won exactly when 45 bricks are gone |
| BrickBreaker.HitBrickValid | brickBreaker.js:152-168 | a brick hit keeps score equal to the number of destroyed bricks and the rest of the invariant |
| BrickBreaker.HitBricks | brickBreaker.js:152-172 | the brick loop only moves forward (bricks stay destroyed, score rises) and keeps the invariant; a ball in no live brick changes nothing |
| BrickBreaker.Fly | brickBreaker.js:117-137 | the flight, wall and floor part of a ball step only moves forward and keeps the invariant |
| BrickBreaker.MoveBall | brickBreaker.js:116-173 | one ball's step only moves forward and keeps the invariant; nothing changes after the end of the game |
| BrickBreaker.MoveBalls | brickBreaker.js:210 | moving the balls present at the start of the pass only moves forward and keeps the invariant |
| BrickBreaker.Tick | brickBreaker.js:208-213 | a frame keeps the invariant, never revives a brick, never lowers the score, never restores a life, and freezes a finished game |
| BrickBreaker.MoveBallOpenField | brickBreaker.js:117-126 | a ball clear of floor, paddle and bricks moves by velocity times multiplier, flipping dx past a side wall and dy past the top |
| BrickBreaker.MoveBallFloor | brickBreaker.js:128-137 | crossing the floor costs one life. The last life ends the game. Otherwise the ball resets to (W/2, H-40) with dx 4 and the paddle re-centres |
| BrickBreaker.WonIffWallCleared | brickBreaker.js:163-168 | in a valid session the game is won exactly when the whole wall is destroyed |
| ShooterClock.Remaining | shooter.js:53-54 | remaining time is zero exactly when the time is used up, otherwise the difference; it lies within [0, total] for non-negative elapsed time |
| ShooterClock.TimerTextReadsBack | shooter.js:52-57 | the timer text is minutes, a colon, then two digits, which read back as the remaining minutes and seconds (below 60) |
| ShooterClock.FullTimerText | shooter.js:20 | a timer just started reads "3:00" |
| ShooterClock.CountdownTextReadsBack | shooter.js:68-72 | the countdown text is "0:" followed by two digits that read back as the whole seconds left, at most 10 |
| Shooter.EndGame | combined.js:309-317 | ending marks the session over; the first call's outcome is kept |
| Shooter.MoveBullet | shooter.js:110-114 | a bullet moves up by 7 and is removed exactly when that takes it above the top |
| Shooter.MoveEnemy | shooter.js:117-121 | an enemy moves down by 2 and is removed exactly when that takes it below the bottom |
| Shooter.DecayParticle | shooter.js:124-130 | a particle drifts by its velocity, loses one life, and is removed exactly when no life is left |
| Shooter.BulletPass | shooter.js:109-115 | a visited bullet moves up exactly 7 and is kept only if not above the top |
| Shooter.EnemyPass | shooter.js:116-122 | a visited enemy moves down exactly 2 and is kept only if not below the bottom |
| Shooter.ParticlePass | shooter.js:123-131 | a visited particle drifts by its velocity, loses exactly one life, and is kept only with life left |
| Shooter.Explosion | shooter.js:181-193 | exactly 20 particles at the given point with life 20, size in [2, 7) and velocity in [-1, 1) |
| Shooter.SpawnEnemy | combined.js:230-240 | one 20 by 20 enemy at y = 0 with 0 <= x < W - 20; nothing while over or paused |
| Shooter.Shoot | shooter.js:159-168 | one 5 by 10 bullet, horizontally centred on the player, at the player's top |
| Shooter.CheckCollisions | shooter.js:195-214 | some hit happens exactly when some bullet of the frame overlaps some enemy. Per hit: one enemy gone, at most one bullet gone, +10 score, 20 sparks at the centre of one of the frame's enemies, 60 draws. Only old bullets and enemies remain. No hit means no change. A win is declared exactly when a hit brings the score to 900 |
| Shooter.CheckBullet | shooter.js:197-212 | one bullet's inner loop keeps the per-hit accounting: every enemy it removes is worth 10 points and 60 draws, and only the pools, score and outcome change. It ends with no hit only when that bullet overlaps none of the frame's enemies |
| Shooter.AccountedDelta | shooter.js:204-207 | between two points of a collision pass, each removed enemy accounts for exactly 10 points and 60 draws |
| Shooter.CollisionStep | shooter.js:204-210 | one hit keeps the per-hit accounting |
| Shooter.MeetingPair | shooter.js:198-203 | an overlapping bullet and enemy of the arrays mean not every pair misses |
| Shooter.ContinueGame | shooter.js:253-256 | continuing clears the countdown and restarts the timer at the full three minutes |
| Shooter.Clock | shooter.js:52-81 | the countdown starts exactly when the timer runs out and none is active; an expired countdown ends the game lost |
| Shooter.NewPos | shooter.js:87-104 | a player that fits the canvas ends inside it on both axes; a move staying inside is applied unchanged |
| Shooter.KeyDown | shooter.js:216-230 | arrows set dx or dy to plus or minus 5, space shoots, Enter continues only during the countdown, other keys change nothing |
| Shooter.KeyUp | shooter.js:232-246 | releasing any arrow zeroes both dx and dy |
| Shooter.OnlyEnterContinues | shooter.js:225-228 | the countdown is dismissed by a key exactly when that key is Enter, and doing so restarts the full timer |
| Shooter.Update | combined.js:94-111 | no change when over or paused. Otherwise the score rises in steps of 10, it rises exactly when some bullet overlaps some enemy after the passes, and a hit reaching 900 ends the game won. Without a point, only an expired countdown ends the game. The bullets and enemies left are survivors of their passes, and the particles start with the particle pass's result. The player takes exactly its newPos step and stays on the canvas, and the clock rules hold |
| Shooter.Init | combined.js:51-75 | restart empties the pools and clears score, game-over, pause and countdown |
| Shooter.TogglePause | combined.js:87-92 | the pause flag flips; pausing changes nothing else. Resuming a running game plays one frame: the player's newPos step, the pass survivors and the particle pass, with the start time kept; it scores exactly when some bullet overlaps some enemy after the passes, and without a point only an expired countdown ends it. Either way the score only rises in steps of 10, an ended outcome stays, and a win happens exactly at 900 |
| Shooter.BulletMeetsEnemy | shooter.js:195-214 | a bullet overlapping the only enemy is a hit: the enemy is gone, the score rises by exactly 10, and 20 new sparks start at the enemy's centre |
| Typing.LengthLimit | typingShooter.js:17 | the word length limit is the smaller of 3 plus one per ten points and 8 |
| Typing.EveryWordFits | typingShooter.js:16-20 | every vocabulary word has three letters and so always meets the limit, so no redraw ever happens |
| Typing.RandomWord | typingShooter.js:16-20 | the word is from the vocabulary and within the length limit |
| Typing.Descend | typingShooter.js:61-62 | every word keeps its text and x and moves down |
| Typing.DescendIsPass | typingShooter.js:61-66 | the descent equals the forEach pass whose callback only moves the word: nothing is removed |
| Typing.Update | combined.js:409-432 | no change when over or paused. When due, exactly one vocabulary word appears, having fallen by the level this frame, and the next is due 2000/level later (within (0, 2000]). Every word falls by the level, and the game ends exactly when some word is below the bottom |
| Typing.ToLower | typingShooter.js:104 | the key keeps its length; each upper-case ASCII letter becomes the matching lower-case letter, every other character stays, and no upper-case ASCII letter is left |
| Typing.ToLowerIdempotent | typingShooter.js:104 | lower-casing twice is lower-casing once and leaves lower-case letters alone |
| Typing.Consume | typingShooter.js:106-108 | a word starting with the key loses exactly its first character and is removed when that empties it; other words are unchanged |
| Typing.KeyStroke | typingShooter.js:101-118 | no change when over or paused. Otherwise each completed word leaves, logs an empty entry and scores one, at most every other falling word is completed, and the level rises with every tenth point, so `level == 1 + score / 10` is preserved |
| Typing.KeyDown | combined.js:450-467 | the handler's loop gives exactly the key-stroke effect |
| Typing.SpellingTheOnlyWord | typingShooter.js:101-118 | typing out the only falling word removes it, scores one and logs one empty entry |
| Typing.TwinWordIsSkipped | typingShooter.js:105-109 | of two words left at "t", the key t completes the first and skips the second |
| Typing.GameReport | typingShooter.js:72-80 | the report shows score, level and the whole seconds elapsed, rounded down |
| Typing.JoinOfEmpties | typingShooter.js:80 | the typed-words line of the report holds only separators |
| Typing.Init | typingShooter.js:88-99 | a restart gives empty lists, score 0, level 1, not over, the first word due in 2000 ms |
| Typing.TogglePause | combined.js:371-376 | the pause flag flips, pausing changes nothing else, and the level rule survives. Resuming a running game plays one frame: every word falls by the level, at most one appears, nothing else changes, and the game ends exactly when a word is below the bottom |

## Left out

- Drawing and the DOM: every `ctx` call, the report's HTML, and showing and hiding elements. They hold no game state.
- `alert` and `document.location.reload()` are not modelled as such. A reload ends the session, so the model stops in a terminal phase instead.
  - The rest of the JavaScript frame after a reload call is discarded with the page.
  - In `combined.js`, `endGame` sets `gameOver` and the frame continues. The shooter model continues it too, keeping the outcome of the first `endGame` call.
- Scheduling is left to the caller: `requestAnimationFrame`, the one-second `setInterval` that spawns enemies, and the event listeners.
  - Each `init` of `combined.js` adds new listeners and intervals, and `stop` removes unbound copies, so nothing is unregistered. The model does not follow the resulting duplicated event deliveries.
- `goToArcade`, `loadGame` and the menu in `combined.js` only switch screens.
- The empty `brickBreaker` stub (combined.js:320-334) and the shadowed `canvas`/`ctx` in the load handler (combined.js:474-477) contain no logic.
- JavaScript numbers are doubles; the model computes with exact reals and unbounded integers. Quotients such as `2000 / level`, the random products and the ball positions are therefore exact, and no rounding is modelled.
- `Math.random()` and `Date.now()` are parameters. Each `Update`, `Init` and `TogglePause` receives a single timestamp, where the source reads the clock again inside one frame.
- BrickBreaker.PaddleBounce: `Math.sin` and `Math.cos` of `offset * PI / 3` are the caller-supplied `steer` function. The model states only the normalised offset and the speed factor, not the angle.
- Brick positions use the grid formula. The source assigns them only while drawing, which comes after `moveBall`, so on the very first frame every brick still sits at (0, 0). The model does not reproduce that one frame.
- Typing.RandomWord: the redraw for an over-long word is not written out. Every vocabulary word meets the length limit (`EveryWordFits`), so the redraw never happens.
- Shooter.CheckCollisions: states that a hit happens exactly when some pair overlaps, the effect of each hit and the overall accounting. It does not state which of several overlapping pairs hit, or how many, so an explosion is only known to start at the centre of one of the frame's enemies, not at the enemy that was hit. The method itself follows the nested loops exactly, including a hit bullet that keeps testing later enemies.
- Typing.KeyDown: the per-word bookkeeping (typed entry, point, level check) runs after the splice pass rather than inside it. The pass reads none of that state, so the final state is the same.
- String lower-casing covers ASCII letters only; other characters are left unchanged.
- The standalone `typingShooter.js` has no pause. It corresponds to the model with `paused` false.

=== FILE: brick_breaker.dfy ===
/** One frame of the brick-breaker: movePaddle, then moveBall for every ball
    that was in play when the frame began. moveBall advances the ball,
    reflects it off the side and top walls, handles the floor (a life lost,
    or the end of the game), steers it off the paddle and knocks out the
    live bricks it is inside. Once a terminal phase is reached no frame
    changes the session any more: the source reloads the page at that point.
    The key handlers have no such guard and still set the paddle's velocity. */
module BrickBreaker {
  import opened Common
  import opened Geometry
  import opened BrickState
  import opened PowerUps

  /** The paddle bounce sets dx = speed * sin(angle), dy = -speed * cos(angle)
      with angle = offset * pi / 3. The trigonometry is supplied by the
      caller: steer(offset) is the pair (sin(angle), cos(angle)). */
  type Steer = real -> (real, real)

  /** The frame-to-frame relation every step keeps: destroyed bricks stay
      destroyed, and score, balls and counters only grow while lives only
      shrink. */
  predicate Progress(g: Game, r: Game)
  {
    && |r.bricks| == |g.bricks|
    && (forall k :: 0 <= k < |g.bricks| && !g.bricks[k].live ==> !r.bricks[k].live)
    && g.score <= r.score
    && r.lives <= g.lives
    && |g.balls| <= |r.balls|
    && g.counters.speed <= r.counters.speed
    && g.counters.multiBall <= r.counters.multiBall
    && g.counters.longerPaddle <= r.counters.longerPaddle
  }

  /** movePaddle: move by dx, then push back inside the canvas. */
  function MovePaddle(g: Game, W: real): (r: Game)
    ensures r == g.(paddle := r.paddle)
    ensures r.paddle.dx == g.paddle.dx && r.paddle.lengthMultiplier == g.paddle.lengthMultiplier
    ensures g.paddle.Width() <= W ==> 0.0 <= r.paddle.x && r.paddle.x + r.paddle.Width() <= W
    ensures 0.0 <= g.paddle.x + g.paddle.dx && g.paddle.x + g.paddle.dx + g.paddle.Width() <= W ==>
      r.paddle.x == g.paddle.x + g.paddle.dx
  {
    var p := g.paddle;
    g.(paddle := p.(x := ClampSpan(p.x + p.dx, p.Width(), W)))
  }

  /** The arrow keys set the paddle's velocity; any other key is ignored. */
  function KeyDown(g: Game, key: string): (r: Game)
    ensures key == "Right" || key == "ArrowRight" ==> r == g.(paddle := g.paddle.(dx := PaddleSpeed))
    ensures key == "Left" || key == "ArrowLeft" ==> r == g.(paddle := g.paddle.(dx := -PaddleSpeed))
    ensures key !in {"Right", "ArrowRight", "Left", "ArrowLeft"} ==> r == g
  {
    if key == "Right" || key == "ArrowRight" then g.(paddle := g.paddle.(dx := PaddleSpeed))
    else if key == "Left" || key == "ArrowLeft" then g.(paddle := g.paddle.(dx := -PaddleSpeed))
    else g
  }

  /** Releasing either arrow stops the paddle. */
  function KeyUp(g: Game, key: string): (r: Game)
    ensures key in {"Right", "ArrowRight", "Left", "ArrowLeft"} ==> r == g.(paddle := g.paddle.(dx := 0.0))
    ensures key !in {"Right", "ArrowRight", "Left", "ArrowLeft"} ==> r == g
  {
    if key == "Right" || key == "ArrowRight" || key == "Left" || key == "ArrowLeft" then
      g.(paddle := g.paddle.(dx := 0.0))
    else g
  }

  /** The key handlers touch only the paddle's velocity, so they keep the
      session invariant in every phase. */
  lemma KeysKeepValid(g: Game, key: string)
    requires Valid(g)
    ensures Valid(KeyDown(g, key)) && Valid(KeyUp(g, key))
    ensures KeyDown(g, key).phase == g.phase && KeyUp(g, key).phase == g.phase
  {
  }

  /** The ball's edge is past the left or right wall. */
  predicate CrossesSide(b: Ball, W: real)
  {
    b.x + BallSize > W || b.x - BallSize < 0.0
  }

  /** The ball's edge is past the top wall. */
  predicate CrossesTop(b: Ball)
  {
    b.y - BallSize < 0.0
  }

  /** The ball's edge is past the floor. */
  predicate CrossesFloor(b: Ball, H: real)
  {
    b.y + BallSize > H
  }

  /** The first step of moveBall: one step of the velocity scaled by the
      ball's speed multiplier. */
  function Advance(b: Ball): Ball
  {
    b.(x := b.x + b.dx * b.speedMultiplier, y := b.y + b.dy * b.speedMultiplier)
  }

  /** The wall reflections of moveBall. */
  function BounceWalls(b: Ball, W: real): Ball
  {
    var b1 := if CrossesSide(b, W) then b.(dx := -b.dx) else b;
    if CrossesTop(b1) then b1.(dy := -b1.dy) else b1
  }

  /** The paddle-hit test: the centre strictly between the paddle's ends and
      the ball's bottom edge strictly below the paddle's top. */
  predicate PaddleHit(b: Ball, p: Paddle, H: real)
  {
    b.x > p.x && b.x < p.x + p.Width() && b.y + BallSize > PaddleY(H)
  }

  /** The impact offset from the paddle's centre divided by half the
      paddle's effective width. */
  function NormalizedOffset(b: Ball, p: Paddle): (n: real)
    requires b.x > p.x && b.x < p.x + p.Width()
    ensures -1.0 < n < 1.0
    ensures n == 0.0 <==> b.x == p.x + p.Width() / 2.0
    ensures n < 0.0 <==> b.x < p.x + p.Width() / 2.0
  {
    var half := p.Width() / 2.0;
    var collidePoint := b.x - (p.x + half);
    DivideWithin(collidePoint, half);
    collidePoint / half
  }

  /** A quotient of a number strictly inside (-d, d) by d > 0 lies strictly
      inside (-1, 1), with the sign of the number. */
  lemma DivideWithin(a: real, d: real)
    requires 0.0 < d && -d < a < d
    ensures -1.0 < a / d < 1.0
    ensures a / d == 0.0 <==> a == 0.0
    ensures a / d < 0.0 <==> a < 0.0
  {
    var q := a / d;
    assert q * d == a;
    if q >= 1.0 {
      ProductNonNegative(q - 1.0, d);
    }
    if q <= -1.0 {
      ProductNonNegative(-1.0 - q, d);
    }
    if q < 0.0 {
      assert (-q) * d > 0.0;
    }
    if q > 0.0 {
      assert q * d > 0.0;
    }
  }

  lemma ProductNonNegative(x: real, d: real)
    requires 0.0 <= x && 0.0 < d
    ensures 0.0 <= x * d
  {
  }

  /** The floor branch of moveBall: a life is lost; with none left the game
      is over, otherwise this ball relaunches and the paddle moves to
      canvas.width / 2 - paddle.width / 2 (the base width, whatever the
      length multiplier). */
  function FloorExit(g: Game, W: real, H: real, i: nat): (r: Game)
    requires i < |g.balls|
    ensures r.lives == g.lives - 1
    ensures r.lives == 0 ==> r == g.(lives := 0, phase := GameOver)
    ensures r.lives != 0 ==>
      r == g.(lives := r.lives, balls := g.balls[i := SpawnBall(W, H)],
              paddle := g.paddle.(x := W / 2.0 - PaddleWidth / 2.0))
  {
    var lives := g.lives - 1;
    if lives == 0 then g.(lives := lives, phase := GameOver)
    else g.(lives := lives, balls := g.balls[i := SpawnBall(W, H)],
            paddle := g.paddle.(x := W / 2.0 - PaddleWidth / 2.0))
  }

  /** The paddle branch of moveBall: a ball inside the paddle test leaves
      with a velocity chosen only by where it struck the paddle. */
  function PaddleBounce(g: Game, H: real, steer: Steer, i: nat): (r: Game)
    requires i < |g.balls|
    ensures Progress(g, r)
    ensures Valid(g) ==> Valid(r)
    ensures !PaddleHit(g.balls[i], g.paddle, H) ==> r == g
    ensures PaddleHit(g.balls[i], g.paddle, H) ==>
      var n := NormalizedOffset(g.balls[i], g.paddle);
      && -1.0 < n < 1.0
      && r == g.(balls := g.balls[i := g.balls[i].(dx := BallSpeed * steer(n).0, dy := -BallSpeed * steer(n).1)])
  {
    var b := g.balls[i];
    if PaddleHit(b, g.paddle, H) then
      var n := NormalizedOffset(b, g.paddle);
      var (sin, cos) := steer(n);
      g.(balls := g.balls[i := b.(dx := BallSpeed * sin, dy := -BallSpeed * cos)])
    else g
  }

  /** The direct effect of a hit, before the power-up: the brick's status
      drops to 0, the ball turns around vertically and the score goes up. */
  function Knock(g: Game, i: nat, k: nat): Game
    requires i < |g.balls| && k < |g.bricks|
  {
    g.(balls := g.balls[i := g.balls[i].(dy := -g.balls[i].dy)],
       bricks := g.bricks[k := g.bricks[k].(live := false)],
       score := g.score + 1)
  }

  /** One brick of the inner forEach: a live brick containing the ball's
      centre is destroyed, turns the ball around vertically, scores one and
      fires its power-up; the last brick wins the game. */
  function HitBrick(g: Game, i: nat, k: nat): (r: Game)
    requires i < |g.balls| && k < |g.bricks|
    ensures Progress(g, r)
    ensures !g.bricks[k].live || !BallInBrick(g.balls[i], k) ==> r == g
    ensures g.bricks[k].live && BallInBrick(g.balls[i], k) ==>
      && !r.bricks[k].live
      && r.score == g.score + 1
      && r.balls[i].dy == -g.balls[i].dy
      && (r.phase == Won <==> g.phase == Won || r.score == BrickCount)
    ensures g.bricks[k].live && BallInBrick(g.balls[i], k) ==>
      var p := HandlePowerUp(Knock(g, i, k), g.bricks[k].color);
      r == p.(phase := r.phase)
    ensures r.balls[i].x == g.balls[i].x && r.balls[i].y == g.balls[i].y && r.balls[i].dx == g.balls[i].dx
    ensures r.paddle.x == g.paddle.x && r.lives == g.lives
    ensures r.phase == g.phase || r.phase == Won
    ensures forall m :: 0 <= m < |g.bricks| && m != k ==> r.bricks[m] == g.bricks[m]
  {
    if g.bricks[k].live && BallInBrick(g.balls[i], k) then
      var g2 := HandlePowerUp(Knock(g, i, k), g.bricks[k].color);
      if g2.score == BrickCount then g2.(phase := Won) else g2
    else g
  }

  /** A knock on a live brick keeps the invariant once the phase records
      whether the wall is now cleared. */
  lemma KnockValid(g: Game, i: nat, k: nat)
    requires i < |g.balls| && k < |g.bricks|
    requires Valid(g) && g.phase == Playing && g.bricks[k].live
    ensures var g1 := Knock(g, i, k);
      Valid(g1.(phase := if g1.score == BrickCount then Won else Playing))
  {
    DestroyOne(g.bricks, k);
    var g1 := Knock(g, i, k);
    assert forall j :: 0 <= j < |g1.balls| ==> g1.balls[j].speedMultiplier == g.balls[j].speedMultiplier;
  }

  /** Knocking out a brick keeps the session invariant; in particular the
      score still counts the destroyed bricks. */
  lemma HitBrickValid(g: Game, i: nat, k: nat)
    requires i < |g.balls| && k < |g.bricks|
    requires Valid(g) && g.phase == Playing
    ensures Valid(HitBrick(g, i, k))
  {
    if g.bricks[k].live && BallInBrick(g.balls[i], k) {
      var g1 := Knock(g, i, k);
      var p := if g1.score == BrickCount then Won else Playing;
      KnockValid(g, i, k);
      HandlePowerUpValid(g1.(phase := p), g.bricks[k].color);
      HandlePowerUpIgnoresPhase(g1, g.bricks[k].color, p);
    }
  }

  /** The brick loop of moveBall, from flat index k to the end of the wall;
      it stops changing anything once the game has ended. */
  function HitBricks(g: Game, i: nat, k: nat): (r: Game)
    requires i < |g.balls|
    ensures i < |r.balls|
    ensures Progress(g, r)
    ensures Valid(g) ==> Valid(r)
    ensures r.balls[i].x == g.balls[i].x && r.balls[i].y == g.balls[i].y && r.balls[i].dx == g.balls[i].dx
    ensures r.paddle.x == g.paddle.x && r.lives == g.lives
    ensures r.phase == g.phase || r.phase == Won
    ensures (forall m :: k <= m < |g.bricks| && g.bricks[m].live ==> !BallInBrick(g.balls[i], m)) ==> r == g
    decreases |g.bricks| - k
  {
    if k >= |g.bricks| || g.phase != Playing then g
    else
      var g1 := HitBrick(g, i, k);
      if Valid(g) && g.phase == Playing then HitBrickValid(g, i, k); HitBricks(g1, i, k + 1)
      else HitBricks(g1, i, k + 1)
  }

  /** The first half of moveBall: the ball flies one step, reflects off the
      walls, and may cross the floor. */
  function Fly(g: Game, W: real, H: real, i: nat): (r: Game)
    requires i < |g.balls| && g.phase == Playing
    ensures i < |r.balls|
    ensures Progress(g, r)
    ensures Valid(g) ==> Valid(r)
  {
    var b := BounceWalls(Advance(g.balls[i]), W);
    var g1 := g.(balls := g.balls[i := b]);
    assert Valid(g) ==> Valid(g1) by {
      assert forall j :: 0 <= j < |g1.balls| ==> g1.balls[j].speedMultiplier == g.balls[j].speedMultiplier;
    }
    if CrossesFloor(b, H) then FloorExit(g1, W, H, i) else g1
  }

  /** Progress composes. */
  lemma ProgressTransitive(a: Game, b: Game, c: Game)
    requires Progress(a, b) && Progress(b, c)
    ensures Progress(a, c)
  {
  }

  /** moveBall for the ball at index i. */
  function MoveBall(g: Game, W: real, H: real, steer: Steer, i: nat): (r: Game)
    requires i < |g.balls|
    ensures i < |r.balls|
    ensures Progress(g, r)
    ensures Valid(g) ==> Valid(r)
    ensures g.phase != Playing ==> r == g
  {
    if g.phase != Playing then g
    else
      var g2 := Fly(g, W, H, i);
      if g2.phase != Playing then g2
      else
        var g3 := PaddleBounce(g2, H, steer, i);
        var r := HitBricks(g3, i, 0);
        ProgressTransitive(g, g2, g3);
        ProgressTransitive(g, g3, r);
        r
  }

  /** balls.forEach(moveBall): the balls present when the pass starts, in
      order; balls a multi-ball adds during the pass wait for the next frame. */
  function MoveBalls(g: Game, W: real, H: real, steer: Steer, i: nat, n: nat): (r: Game)
    requires n <= |g.balls|
    ensures Progress(g, r)
    ensures Valid(g) ==> Valid(r)
    decreases n - i
  {
    if i >= n then g
    else MoveBalls(MoveBall(g, W, H, steer, i), W, H, steer, i + 1, n)
  }

  /** update(): one animation frame. */
  function Tick(g: Game, W: real, H: real, steer: Steer): (r: Game)
    ensures Progress(g, r)
    ensures Valid(g) ==> Valid(r)
    ensures g.phase != Playing ==> r == g
  {
    if g.phase != Playing then g
    else MoveBalls(MovePaddle(g, W), W, H, steer, 0, |g.balls|)
  }

  /** A frame on a ball that meets neither the floor, the paddle nor a live
      brick just moves it and reflects it off the walls it is past. */
  lemma MoveBallOpenField(g: Game, W: real, H: real, steer: Steer, i: nat)
    requires i < |g.balls| && g.phase == Playing
    requires var a := Advance(g.balls[i]);
      && !CrossesFloor(a, H)
      && !PaddleHit(BounceWalls(a, W), g.paddle, H)
      && forall m :: 0 <= m < |g.bricks| && g.bricks[m].live ==> !BallInBrick(a, m)
    ensures var b := g.balls[i];
      var a := Advance(b);
      var r := MoveBall(g, W, H, steer, i);
      && r.balls == g.balls[i := r.balls[i]]
      && r.balls[i].x == b.x + b.dx * b.speedMultiplier
      && r.balls[i].y == b.y + b.dy * b.speedMultiplier
      && r.balls[i].dx == (if CrossesSide(a, W) then -b.dx else b.dx)
      && r.balls[i].dy == (if CrossesTop(a) then -b.dy else b.dy)
      && r == g.(balls := r.balls)
  {
  }

  /** A ball past the floor costs a life. The last life ends the game;
      otherwise the ball restarts from the launch point, moving up and right,
      and the paddle is re-centred. */
  lemma MoveBallFloor(g: Game, W: real, H: real, steer: Steer, i: nat)
    requires i < |g.balls| && g.phase == Playing
    requires CrossesFloor(BounceWalls(Advance(g.balls[i]), W), H)
    ensures var r := MoveBall(g, W, H, steer, i);
      && r.lives == g.lives - 1
      && (g.lives == 1 ==> r.phase == GameOver)
      && (g.lives != 1 ==>
            && r.balls[i].x == W / 2.0 && r.balls[i].y == H - 40.0 && r.balls[i].dx == 4.0
            && r.paddle.x == W / 2.0 - 50.0)
  {
  }

  /** Winning: in a valid session the game is won exactly when every brick of
      the wall is destroyed. */
  lemma WonIffWallCleared(g: Game)
    requires Valid(g)
    ensures g.phase == Won <==> forall k :: 0 <= k < |g.bricks| ==> !g.bricks[k].live
  {
    DestroyedAll(g.bricks);
  }
}

=== FILE: brick_state.dfy ===
/** The brick-breaker's session record: the paddle, the balls, the brick
    wall, score, lives, the three power-up counters and a terminal phase in
    place of the alert-and-reload. Canvas width and height are parameters of
    the operations, never stored. */
module BrickState {
  import opened Common

  // Paddle, ball and brick-wall constants of brickBreaker.js.
  const PaddleWidth: real := 100.0
  const PaddleHeight: real := 10.0
  const PaddleSpeed: real := 7.0
  const BallSize: real := 10.0
  const BallSpeed: real := 4.0
  const RowCount: nat := 5
  const ColumnCount: nat := 9
  const BrickCount: nat := RowCount * ColumnCount
  const BrickWidth: real := 70.0
  const BrickHeight: real := 20.0
  const BrickPadding: real := 10.0
  const BrickOffsetTop: real := 30.0
  const BrickOffsetLeft: real := 35.0
  const StartLives: int := 3

  // Brick colours; the last three double as power-up kinds.
  const Blue: string := "#0095DD"
  const SpeedColor: string := "#FF5733"
  const MultiBallColor: string := "#33FF57"
  const LongerPaddleColor: string := "#FF33A1"
  const Colors: seq<string> := [Blue, SpeedColor, MultiBallColor, LongerPaddleColor]

  // Power-up caps, and the cap on balls in play checked by the multi-ball effect.
  const MaxSpeedPowerUp: nat := 4
  const MaxMultiBallPowerUp: nat := 4
  const MaxLongerPaddlePowerUp: nat := 3
  const MaxBalls: nat := 4
  const MaxSpeedMultiplier: real := 2.0
  const MaxLengthMultiplier: real := 2.5

  /** The paddle's x (its left edge), its current velocity, and the
      multiplier the longer-paddle power-up grows. Its height, speed and
      y = H - 30 are constants. */
  datatype Paddle = Paddle(x: real, dx: real, lengthMultiplier: real)
  {
    /** paddle.width * paddle.lengthMultiplier */
    function Width(): real
    {
      PaddleWidth * lengthMultiplier
    }
  }

  /** A ball's centre, velocity and speed multiplier; radius and base speed
      are the constants BallSize and BallSpeed. */
  datatype Ball = Ball(x: real, y: real, dx: real, dy: real, speedMultiplier: real)

  /** A brick of the wall: `live` is `status === 1`. */
  datatype Brick = Brick(live: bool, color: string)

  datatype Counters = Counters(speed: nat, multiBall: nat, longerPaddle: nat)

  /** GameOver and Won replace the alert followed by a page reload. */
  datatype Phase = Playing | GameOver | Won

  datatype Game = Game(
    paddle: Paddle,
    balls: seq<Ball>,
    bricks: seq<Brick>,
    score: nat,
    lives: int,
    counters: Counters,
    phase: Phase)

  /** The paddle's y: canvas.height - 30. */
  function PaddleY(H: real): real
  {
    H - 30.0
  }

  /** Column and row of the brick at flat index k; the wall is stored column
      by column, the order in which moveBall's nested forEach visits it. */
  function Column(k: nat): nat { k / RowCount }
  function Row(k: nat): nat { k % RowCount }

  /** The left edge of the brick at flat index k: c * (width + padding) + left offset.
      The nine columns span x = 35 to 745. */
  function BrickX(k: nat): (x: real)
    ensures BrickOffsetLeft <= x
    ensures k < BrickCount ==>
      x + BrickWidth <= BrickOffsetLeft + ColumnCount as real * (BrickWidth + BrickPadding) - BrickPadding
  {
    Column(k) as real * (BrickWidth + BrickPadding) + BrickOffsetLeft
  }

  /** The top edge of the brick at flat index k: r * (height + padding) + top offset.
      The five rows span y = 30 to 170. */
  function BrickY(k: nat): (y: real)
    ensures BrickOffsetTop <= y
    ensures y + BrickHeight <= BrickOffsetTop + RowCount as real * (BrickHeight + BrickPadding) - BrickPadding
  {
    Row(k) as real * (BrickHeight + BrickPadding) + BrickOffsetTop
  }

  /** Later columns lie further right and later rows further down, each
      separated from the one before by the padding. */
  lemma WallOrder(k: nat, m: nat)
    ensures Column(k) < Column(m) ==> BrickX(k) + BrickWidth + BrickPadding <= BrickX(m)
    ensures Row(k) < Row(m) ==> BrickY(k) + BrickHeight + BrickPadding <= BrickY(m)
  {
  }

  /** Consecutive bricks of a column are 10 apart vertically, consecutive
      columns 10 apart horizontally, so no two bricks of the wall share an
      interior point. */
  lemma BricksDoNotOverlap(k: nat, m: nat)
    requires k < BrickCount && m < BrickCount && k != m
    ensures BrickX(k) + BrickWidth <= BrickX(m) || BrickX(m) + BrickWidth <= BrickX(k)
         || BrickY(k) + BrickHeight <= BrickY(m) || BrickY(m) + BrickHeight <= BrickY(k)
  {
    if Column(k) == Column(m) {
      assert Row(k) != Row(m);
    }
  }

  /** The ball's centre lies strictly inside the brick at flat index k. */
  predicate BallInBrick(b: Ball, k: nat)
  {
    && b.x > BrickX(k)
    && b.x < BrickX(k) + BrickWidth
    && b.y > BrickY(k)
    && b.y < BrickY(k) + BrickHeight
  }

  /** The number of destroyed bricks (status 0). */
  function Destroyed(bs: seq<Brick>): (n: nat)
    ensures n <= |bs|
  {
    if bs == [] then 0
    else Destroyed(bs[..|bs| - 1]) + (if bs[|bs| - 1].live then 0 else 1)
  }

  /** Destroying a live brick adds exactly one to the count. */
  lemma {:induction false} DestroyOne(bs: seq<Brick>, k: nat)
    requires k < |bs| && bs[k].live
    ensures Destroyed(bs[k := bs[k].(live := false)]) == Destroyed(bs) + 1
    decreases |bs|
  {
    var bs' := bs[k := bs[k].(live := false)];
    var n := |bs| - 1;
    if k == n {
      assert bs'[..n] == bs[..n];
    } else {
      DestroyOne(bs[..n], k);
      assert bs'[..n] == bs[..n][k := bs[k].(live := false)];
    }
  }

  /** Every brick is destroyed exactly when the count reaches the wall size. */
  lemma {:induction false} DestroyedAll(bs: seq<Brick>)
    ensures Destroyed(bs) == |bs| <==> forall k :: 0 <= k < |bs| ==> !bs[k].live
    decreases |bs|
  {
    if bs != [] {
      var n := |bs| - 1;
      DestroyedAll(bs[..n]);
      assert forall k :: 0 <= k < n ==> bs[..n][k] == bs[k];
    }
  }

  /** The session invariant the game keeps from its start state on. */
  predicate Valid(g: Game)
  {
    && |g.bricks| == BrickCount
    && g.score == Destroyed(g.bricks)
    && |g.balls| == 1 + g.counters.multiBall <= MaxBalls
    && g.counters.speed <= MaxSpeedPowerUp
    && g.counters.longerPaddle <= MaxLongerPaddlePowerUp
    && g.paddle.lengthMultiplier == 1.0 + 0.5 * g.counters.longerPaddle as real
    && (forall j :: 0 <= j < |g.balls| ==> 1.0 <= g.balls[j].speedMultiplier <= MaxSpeedMultiplier)
    && 0 <= g.lives <= StartLives
    && (g.phase == Won <==> g.score == BrickCount)
    && (g.phase == Playing ==> 0 < g.lives)
    && (g.phase == GameOver ==> g.lives == 0)
  }

  /** resetBall: back to the launch point above the paddle, moving up and
      right at the base speed. */
  function SpawnBall(W: real, H: real): Ball
  {
    Ball(W / 2.0, H - 40.0, 4.0, -4.0, 1.0)
  }

  /** generateBricks: 9 columns of 5 live bricks, each coloured by one draw
      `colors[Math.floor(Math.random() * colors.length)]`, drawn column by
      column. */
  function GenerateBricks(draws: seq<real>): (bs: seq<Brick>)
    requires |draws| == BrickCount
    requires forall k :: 0 <= k < |draws| ==> 0.0 <= draws[k] < 1.0
    ensures |bs| == BrickCount
    ensures forall k :: 0 <= k < |bs| ==> bs[k].live && bs[k].color in Colors
    ensures Destroyed(bs) == 0
  {
    var bs := seq(BrickCount, k requires 0 <= k < BrickCount => Brick(true, Colors[Pick(draws[k], |Colors|)]));
    NoneDestroyed(bs);
    bs
  }

  lemma {:induction false} NoneDestroyed(bs: seq<Brick>)
    requires forall k :: 0 <= k < |bs| ==> bs[k].live
    ensures Destroyed(bs) == 0
    decreases |bs|
  {
    if bs != [] {
      NoneDestroyed(bs[..|bs| - 1]);
    }
  }

  /** The state the script builds when the page loads. */
  function Start(W: real, H: real, draws: seq<real>): (g: Game)
    requires |draws| == BrickCount
    requires forall k :: 0 <= k < |draws| ==> 0.0 <= draws[k] < 1.0
    ensures Valid(g)
    ensures g.phase == Playing && g.score == 0 && g.lives == StartLives
  {
    Game(Paddle(W / 2.0 - 50.0, 0.0, 1.0), [SpawnBall(W, H)], GenerateBricks(draws),
         0, StartLives, Counters(0, 0, 0), Playing)
  }
}

=== FILE: common.dfy ===
/** Small shared vocabulary: an Option type, JavaScript's Math.min/Math.max
    on the values the games use, and the random-number stream that stands in
    for Math.random(). */
module Common {

  /** The result of visiting one element of a pool: the element as it stays,
      or None when the visit removes it. */
  datatype Option<T> = None | Some(value: T)

  /** Math.min on two numbers. */
  function Min(a: real, b: real): (r: real)
    ensures r <= a && r <= b
    ensures r == a || r == b
  {
    if a <= b then a else b
  }

  /** Math.max on two integers. */
  function MaxInt(a: int, b: int): (r: int)
    ensures a <= r && b <= r
    ensures r == a || r == b
  {
    if a <= b then b else a
  }

  /** The successive values returned by Math.random(): the n-th call of the
      session returns rng(n). The caller supplies the stream. */
  type Rng = nat -> real

  /** Every draw lies in [0, 1), as Math.random() guarantees. */
  ghost predicate ValidRng(rng: Rng)
  {
    forall n: nat :: 0.0 <= rng(n) < 1.0
  }

  /** Math.random() * span: a position drawn uniformly from [0, span). */
  function Scale(r: real, span: real): (x: real)
    ensures 0.0 <= r < 1.0 && 0.0 < span ==> 0.0 <= x < span
  {
    assert 0.0 <= r < 1.0 && 0.0 < span ==> r * span < 1.0 * span by {
      if 0.0 <= r < 1.0 && 0.0 < span {
        assert (1.0 - r) * span > 0.0;
      }
    }
    r * span
  }

  /** Math.floor(r * n): the index a draw r selects among n choices. */
  function Pick(r: real, n: nat): (k: nat)
    requires 0.0 <= r < 1.0
    requires 0 < n
    ensures k < n
    ensures k as real <= r * n as real < k as real + 1.0
  {
    var x := r * n as real;
    FractionBelow(r, n as real);
    FloorWithin(x, n);
    x.Floor
  }

  /** A fraction r in [0, 1) of a positive m lies in [0, m). */
  lemma FractionBelow(r: real, m: real)
    requires 0.0 <= r < 1.0 && 0.0 < m
    ensures 0.0 <= r * m < m
  {
    assert m - r * m == (1.0 - r) * m;
  }

  /** The floor of a value in [0, n) is an index below n. */
  lemma FloorWithin(x: real, n: int)
    requires 0.0 <= x < n as real
    ensures 0 <= x.Floor < n
    ensures x.Floor as real <= x < x.Floor as real + 1.0
  {
  }
}

=== FILE: decimal.dfy ===
/** Decimal text of non-negative integers, as a JavaScript template literal
    `${n}` writes them, and the two-digit padding the shooter's clock uses.
    The inverse, Value, reads such text back. */
module Decimal {

  predicate IsDigit(c: char)
  {
    '0' <= c <= '9'
  }

  predicate AllDigits(s: string)
  {
    forall i :: 0 <= i < |s| ==> IsDigit(s[i])
  }

  function Digit(d: nat): (c: char)
    requires d < 10
    ensures IsDigit(c)
  {
    ('0' as int + d) as char
  }

  function DigitValue(c: char): (d: nat)
    requires IsDigit(c)
    ensures d < 10
  {
    c as int - '0' as int
  }

  /** `${n}` for a non-negative integer n: its digits, most significant first,
      without leading zeros. */
  function Show(n: nat): (s: string)
    ensures 1 <= |s|
    ensures AllDigits(s)
    ensures n < 10 <==> |s| == 1
    decreases n
  {
    if n < 10 then [Digit(n)] else Show(n / 10) + [Digit(n % 10)]
  }

  /** The number a string of digits denotes. */
  function Value(s: string): nat
    requires AllDigits(s)
  {
    if s == [] then 0 else 10 * Value(s[..|s| - 1]) + DigitValue(s[|s| - 1])
  }

  /** Show and Value are inverse: reading back the text gives the number. */
  lemma {:induction false} ValueShow(n: nat)
    ensures Value(Show(n)) == n
    decreases n
  {
    var s := Show(n);
    if n < 10 {
      assert s[..|s| - 1] == [];
    } else {
      ValueShow(n / 10);
      assert s[..|s| - 1] == Show(n / 10);
    }
  }

  /** `${n < 10 ? '0' : ''}${n}`: a number written with at least two digits. */
  function Padded(n: nat): (s: string)
    ensures AllDigits(s)
    ensures Value(s) == n
    ensures n < 100 ==> |s| == 2
    ensures 2 <= |s|
  {
    ValueShow(n);
    if n < 10 then
      var t := "0" + Show(n);
      assert t[..1] == "0";
      t
    else
      ShowLength(n);
      Show(n)
  }

  /** Numbers from 10 on take at least two digits, and below 100 at most two. */
  lemma ShowLength(n: nat)
    ensures 10 <= n ==> 2 <= |Show(n)|
    ensures n < 100 ==> |Show(n)| <= 2
  {
    if 10 <= n {
      assert Show(n) == Show(n / 10) + [Digit(n % 10)];
    }
  }
}

=== FILE: for_each_splice.dfy ===
/** The removal idiom every pool pass of the arcade uses:

      pool.forEach((item, index) => { ...; if (dead) pool.splice(index, 1); });

    Array.prototype.forEach fixes the length on entry and then visits index
    k = 0, 1, ... as long as k is still an index of the (shrinking) array.
    Removing the element at index k moves its successor to index k, and the
    next visit is at k + 1: the successor of a removed element is skipped
    for that pass and stays as it was.

    A visit is a function from the element to Some(updated element), when it
    stays, or None, when the callback splices it out. */
module ForEachSplice {
  import opened Common

  /** Array.prototype.splice(k, 1): removes the element at index k, and
      removes nothing when k is past the end. */
  function Splice<T>(s: seq<T>, k: nat): (r: seq<T>)
    ensures k < |s| ==> |r| == |s| - 1
    ensures k < |s| ==> forall j :: 0 <= j < k ==> r[j] == s[j]
    ensures k < |s| ==> forall j :: k <= j < |r| ==> r[j] == s[j + 1]
    ensures |s| <= k ==> r == s
  {
    if k < |s| then s[..k] + s[k + 1..] else s
  }

  /** Every element left by a splice was in the array before it. */
  lemma SpliceSubset<T>(s: seq<T>, k: nat)
    ensures forall x :: x in Splice(s, k) ==> x in s
  {
    if k < |s| {
      assert s == s[..k] + [s[k]] + s[k + 1..];
    }
  }

  /** The array a forEach/splice pass leaves behind, defined element by
      element from the front: a kept element is replaced by its visit
      result; a removed one disappears and its successor is carried over
      unvisited. */
  function Pass<T>(s: seq<T>, visit: T -> Option<T>): (r: seq<T>)
    ensures |r| <= |s|
    decreases |s|
  {
    if |s| == 0 then []
    else match visit(s[0])
      case Some(y) => [y] + Pass(s[1..], visit)
      case None => if |s| == 1 then [] else [s[1]] + Pass(s[2..], visit)
  }

  /** How many elements the pass splices out. */
  function Removed<T>(s: seq<T>, visit: T -> Option<T>): nat
    decreases |s|
  {
    if |s| == 0 then 0
    else match visit(s[0])
      case Some(_) => Removed(s[1..], visit)
      case None => 1 + (if |s| == 1 then 0 else Removed(s[2..], visit))
  }

  /** Which elements the callback is called on: Visited(s, visit)[i] holds
      exactly when forEach reaches the element that started at index i. */
  function Visited<T>(s: seq<T>, visit: T -> Option<T>): (v: seq<bool>)
    ensures |v| == |s|
    decreases |s|
  {
    if |s| == 0 then []
    else if visit(s[0]).None? && 2 <= |s| then [true, false] + Visited(s[2..], visit)
    else [true] + Visited(s[1..], visit)
  }

  /** Every element is either kept or removed: the lengths add up. */
  lemma {:induction false} PassLength<T>(s: seq<T>, visit: T -> Option<T>)
    ensures |Pass(s, visit)| + Removed(s, visit) == |s|
    decreases |s|
  {
    if |s| == 0 {
    } else if visit(s[0]).Some? {
      PassLength(s[1..], visit);
    } else if |s| >= 2 {
      PassLength(s[2..], visit);
    }
  }

  /** Each removal protects its successor, so at most every other element
      can be removed in one pass. */
  lemma {:induction false} RemovedAtMostHalf<T>(s: seq<T>, visit: T -> Option<T>)
    ensures 2 * Removed(s, visit) <= |s| + 1
    decreases |s|
  {
    if |s| == 0 {
    } else if visit(s[0]).Some? {
      RemovedAtMostHalf(s[1..], visit);
    } else if |s| >= 2 {
      RemovedAtMostHalf(s[2..], visit);
    }
  }

  /** The first element is always visited, and an element is skipped exactly
      when the element before it was visited and removed. */
  lemma {:induction false} VisitedSkipsExactlyAfterRemoval<T>(s: seq<T>, visit: T -> Option<T>)
    ensures 0 < |s| ==> Visited(s, visit)[0]
    ensures forall i :: 0 <= i < |s| - 1 ==>
      (!Visited(s, visit)[i + 1] <==> Visited(s, visit)[i] && visit(s[i]).None?)
    decreases |s|
  {
    var v := Visited(s, visit);
    if |s| == 0 {
    } else if visit(s[0]).None? && 2 <= |s| {
      var t := s[2..];
      VisitedSkipsExactlyAfterRemoval(t, visit);
      forall i | 0 <= i < |s| - 1
        ensures !v[i + 1] <==> v[i] && visit(s[i]).None?
      {
        if 2 <= i {
          assert v[i] == Visited(t, visit)[i - 2] && s[i] == t[i - 2];
          assert v[i + 1] == Visited(t, visit)[i - 1];
        } else if i == 1 && 2 < |s| {
          assert v[2] == Visited(t, visit)[0];
        }
      }
    } else {
      var t := s[1..];
      VisitedSkipsExactlyAfterRemoval(t, visit);
      forall i | 0 <= i < |s| - 1
        ensures !v[i + 1] <==> v[i] && visit(s[i]).None?
      {
        if 1 <= i {
          assert v[i] == Visited(t, visit)[i - 1] && s[i] == t[i - 1];
          assert v[i + 1] == Visited(t, visit)[i];
        } else {
          assert v[1] == Visited(t, visit)[0];
        }
      }
    }
  }

  /** Every element left by the pass is either the visit result of a visited
      element or an unvisited element unchanged. */
  lemma {:induction false} PassSurvivors<T>(s: seq<T>, visit: T -> Option<T>)
    ensures forall y :: y in Pass(s, visit) ==>
      (exists i :: 0 <= i < |s| &&
        ((Visited(s, visit)[i] && visit(s[i]) == Some(y)) || (!Visited(s, visit)[i] && s[i] == y)))
    decreases |s|
  {
    var v := Visited(s, visit);
    if |s| == 0 {
    } else if visit(s[0]).Some? {
      var t := s[1..];
      PassSurvivors(t, visit);
      forall y | y in Pass(s, visit)
        ensures exists i :: 0 <= i < |s| && ((v[i] && visit(s[i]) == Some(y)) || (!v[i] && s[i] == y))
      {
        if y == visit(s[0]).value {
          assert v[0] && visit(s[0]) == Some(y);
        } else {
          assert y in Pass(t, visit);
          var i :| 0 <= i < |t| &&
            ((Visited(t, visit)[i] && visit(t[i]) == Some(y)) || (!Visited(t, visit)[i] && t[i] == y));
          assert s[i + 1] == t[i] && v[i + 1] == Visited(t, visit)[i];
        }
      }
    } else if |s| >= 2 {
      var t := s[2..];
      PassSurvivors(t, visit);
      forall y | y in Pass(s, visit)
        ensures exists i :: 0 <= i < |s| && ((v[i] && visit(s[i]) == Some(y)) || (!v[i] && s[i] == y))
      {
        if y == s[1] {
          assert !v[1] && s[1] == y;
        } else {
          assert y in Pass(t, visit);
          var i :| 0 <= i < |t| &&
            ((Visited(t, visit)[i] && visit(t[i]) == Some(y)) || (!Visited(t, visit)[i] && t[i] == y));
          assert s[i + 2] == t[i] && v[i + 2] == Visited(t, visit)[i];
        }
      }
    }
  }

  /** When no visit removes anything, every element is visited and the pass
      is a plain element-wise update. */
  lemma {:induction false} PassWithoutRemovals<T>(s: seq<T>, visit: T -> Option<T>)
    requires forall i :: 0 <= i < |s| ==> visit(s[i]).Some?
    ensures Removed(s, visit) == 0
    ensures Pass(s, visit) == seq(|s|, i requires 0 <= i < |s| => visit(s[i]).value)
    decreases |s|
  {
    if |s| > 0 {
      var t := s[1..];
      assert forall i :: 0 <= i < |t| ==> t[i] == s[i + 1];
      PassWithoutRemovals(t, visit);
    }
  }

  /** Unfolding Pass at position j of the original array when the element
      there stays. */
  lemma PassKeepAt<T>(s: seq<T>, j: nat, visit: T -> Option<T>)
    requires j < |s| && visit(s[j]).Some?
    ensures Pass(s[j..], visit) == [visit(s[j]).value] + Pass(s[j + 1..], visit)
    ensures Removed(s[j..], visit) == Removed(s[j + 1..], visit)
  {
    assert s[j..][0] == s[j];
    assert s[j..][1..] == s[j + 1..];
  }

  /** Unfolding Pass at position j of the original array when the element
      there is removed and a successor exists. */
  lemma PassDropAt<T>(s: seq<T>, j: nat, visit: T -> Option<T>)
    requires j + 1 < |s| && visit(s[j]).None?
    ensures Pass(s[j..], visit) == [s[j + 1]] + Pass(s[j + 2..], visit)
    ensures Removed(s[j..], visit) == 1 + Removed(s[j + 2..], visit)
  {
    assert s[j..][0] == s[j];
    assert s[j..][1] == s[j + 1];
    assert s[j..][2..] == s[j + 2..];
  }

  /** Unfolding Pass at the last position when that element is removed. */
  lemma PassDropLast<T>(s: seq<T>, j: nat, visit: T -> Option<T>)
    requires j + 1 == |s| && visit(s[j]).None?
    ensures Pass(s[j..], visit) == []
    ensures Removed(s[j..], visit) == 1
  {
    assert s[j..] == [s[j]];
  }

  /** The loop state of Run: the live array r, the index k, the position j
      of the original array that index k holds, and the removals so far.
      The prefix already scanned followed by the reference pass over the
      rest of the original gives the reference pass over all of it. */
  ghost predicate Scanned<T>(s: seq<T>, visit: T -> Option<T>, r: seq<T>, k: nat, j: nat, removed: nat)
  {
    && j <= |s|
    && (k <= |r| ==> r[k..] == s[j..])
    && (|r| < k ==> k == |r| + 1 && j == |s|)
    && (if k <= |r| then r[..k] else r) + Pass(s[j..], visit) == Pass(s, visit)
    && removed + Removed(s[j..], visit) == Removed(s, visit)
  }

  /** A visited element that stays: it is replaced in place. */
  lemma KeepStep<T>(s: seq<T>, visit: T -> Option<T>, r: seq<T>, k: nat, j: nat, removed: nat)
    requires Scanned(s, visit, r, k, j, removed) && k < |r| && visit(r[k]).Some?
    ensures j < |s| && r[k] == s[j]
    ensures Scanned(s, visit, r[k := visit(r[k]).value], k + 1, j + 1, removed)
  {
    assert r[k] == s[j];
    var y := visit(r[k]).value;
    PassKeepAt(s, j, visit);
    assert r[..k] + [y] == r[k := y][..k + 1];
    assert r[k := y][k + 1..] == r[k + 1..];
  }

  /** A visited element that is spliced out: its successor moves into index
      k and the index moves past it. */
  lemma DropStep<T>(s: seq<T>, visit: T -> Option<T>, r: seq<T>, k: nat, j: nat, removed: nat)
    requires Scanned(s, visit, r, k, j, removed) && k < |r| && visit(r[k]).None?
    ensures j < |s| && r[k] == s[j]
    ensures Scanned(s, visit, r[..k] + r[k + 1..], k + 1, if j + 1 < |s| then j + 2 else |s|, removed + 1)
  {
    assert r[k] == s[j];
    var r' := r[..k] + r[k + 1..];
    if j + 1 < |s| {
      PassDropAt(s, j, visit);
      assert r[..k] + [s[j + 1]] == r'[..k + 1];
      assert r'[k + 1..] == r[k + 2..];
    } else {
      PassDropLast(s, j, visit);
      assert r' == r[..k];
    }
  }

  /** The pass as the source runs it: an index loop over the live array that
      splices in place and always advances the index. */
  method Run<T>(s: seq<T>, visit: T -> Option<T>) returns (r: seq<T>, removed: nat)
    ensures r == Pass(s, visit)
    ensures removed == Removed(s, visit)
  {
    r := s;
    removed := 0;
    var k := 0;
    ghost var j: nat := 0;
    while k < |r|
      invariant Scanned(s, visit, r, k, j, removed)
      decreases |r| - k + 1
    {
      var out := visit(r[k]);
      if out.Some? {
        KeepStep(s, visit, r, k, j, removed);
        r := r[k := out.value];
        j := j + 1;
      } else {
        DropStep(s, visit, r, k, j, removed);
        r := r[..k] + r[k + 1..];
        j := if j + 1 < |s| then j + 2 else |s|;
        removed := removed + 1;
      }
      k := k + 1;
    }
    assert s[j..] == [];
  }
}

=== FILE: geometry.dfy ===
/** Axis-aligned boxes, the strict overlap test the shooter uses for bullets
    against enemies, and the clamp that keeps the paddle and the shooter's
    player on the canvas. */
module Geometry {

  /** A box with its top-left corner at (x, y), extending w to the right and
      h downwards (canvas y grows downwards). */
  datatype Rect = Rect(x: real, y: real, w: real, h: real)

  /** The overlap test of checkCollisions: every comparison is strict, so
      boxes that only share an edge do not overlap. */
  predicate Overlaps(a: Rect, b: Rect)
  {
    && a.x < b.x + b.w
    && a.x + a.w > b.x
    && a.y < b.y + b.h
    && a.y + a.h > b.y
  }

  /** The point (px, py) lies strictly inside the box. */
  predicate Inside(px: real, py: real, r: Rect)
  {
    r.x < px < r.x + r.w && r.y < py < r.y + r.h
  }

  lemma OverlapsSymmetric(a: Rect, b: Rect)
    ensures Overlaps(a, b) <==> Overlaps(b, a)
  {
  }

  /** Boxes that touch along a vertical or horizontal edge do not collide. */
  lemma TouchingEdgesDoNotOverlap(a: Rect, b: Rect)
    requires a.x + a.w == b.x || b.x + b.w == a.x || a.y + a.h == b.y || b.y + b.h == a.y
    ensures !Overlaps(a, b)
  {
  }

  /** For boxes of positive size, the strict test holds exactly when some
      point lies in the interior of both boxes. */
  lemma OverlapsIffCommonInterior(a: Rect, b: Rect)
    requires 0.0 < a.w && 0.0 < a.h && 0.0 < b.w && 0.0 < b.h
    ensures Overlaps(a, b) <==> exists px: real, py: real :: Inside(px, py, a) && Inside(px, py, b)
  {
    if Overlaps(a, b) {
      var lox := if a.x < b.x then b.x else a.x;
      var hix := if a.x + a.w < b.x + b.w then a.x + a.w else b.x + b.w;
      var loy := if a.y < b.y then b.y else a.y;
      var hiy := if a.y + a.h < b.y + b.h then a.y + a.h else b.y + b.h;
      var px, py := (lox + hix) / 2.0, (loy + hiy) / 2.0;
      assert Inside(px, py, a) && Inside(px, py, b);
    }
  }

  /** The two boundary checks applied to one coordinate: first `if (x < 0)
      x = 0`, then `if (x + size > limit) x = limit - size`. */
  function ClampSpan(x: real, size: real, limit: real): (r: real)
    ensures size <= limit ==> 0.0 <= r && r + size <= limit
    ensures 0.0 <= x && x + size <= limit ==> r == x
    ensures limit < size ==> r == limit - size
  {
    var x1 := if x < 0.0 then 0.0 else x;
    if x1 + size > limit then limit - size else x1
  }
}

=== FILE: power_ups.dfy ===
/** handlePowerUp: the colour of a destroyed brick selects at most one of
    three effects, each gated by its own capped counter. The speed effect and
    the multi-ball effect work on the first ball of the session, whichever
    ball hit the brick. */
module PowerUps {
  import opened Common
  import opened BrickState

  predicate WithinCaps(c: Counters)
  {
    c.speed <= MaxSpeedPowerUp && c.multiBall <= MaxMultiBallPowerUp
    && c.longerPaddle <= MaxLongerPaddlePowerUp
  }

  /** The counters after a call: unchanged, or exactly one of them one higher. */
  predicate AtMostOneKind(c: Counters, c': Counters)
  {
    || c' == c
    || c' == c.(speed := c.speed + 1)
    || c' == c.(multiBall := c.multiBall + 1)
    || c' == c.(longerPaddle := c.longerPaddle + 1)
  }

  function HandlePowerUp(g: Game, color: string): (r: Game)
    requires 0 < |g.balls|
    // Nothing outside the balls, the paddle multiplier and the counters changes.
    ensures r.bricks == g.bricks && r.score == g.score && r.lives == g.lives && r.phase == g.phase
    ensures r.paddle.x == g.paddle.x && r.paddle.dx == g.paddle.dx
    ensures AtMostOneKind(g.counters, r.counters)
    ensures WithinCaps(g.counters) ==> WithinCaps(r.counters)
    // A colour that names no kind, or a kind at its cap, leaves everything as it was.
    ensures color != SpeedColor && color != MultiBallColor && color != LongerPaddleColor ==> r == g
    ensures color == SpeedColor && g.counters.speed >= MaxSpeedPowerUp ==> r == g
    ensures color == MultiBallColor && g.counters.multiBall >= MaxMultiBallPowerUp ==> r == g
    ensures color == LongerPaddleColor && g.counters.longerPaddle >= MaxLongerPaddlePowerUp ==> r == g
    // Speed: the first ball gains half a unit of multiplier, saturating at 2.
    ensures color == SpeedColor && g.counters.speed < MaxSpeedPowerUp ==>
      r == g.(balls := g.balls[0 := g.balls[0].(speedMultiplier := Min(g.balls[0].speedMultiplier + 0.5, MaxSpeedMultiplier))],
              counters := g.counters.(speed := g.counters.speed + 1))
    // Multi-ball: a copy of the first ball flying the opposite way, only while
    // fewer than four balls are in play; the counter moves with the ball count.
    ensures color == MultiBallColor && g.counters.multiBall < MaxMultiBallPowerUp ==>
      if |g.balls| < MaxBalls then
        r == g.(balls := g.balls + [g.balls[0].(dx := -g.balls[0].dx, dy := -g.balls[0].dy)],
                counters := g.counters.(multiBall := g.counters.multiBall + 1))
      else r == g
    ensures |r.balls| - |g.balls| == r.counters.multiBall - g.counters.multiBall
    ensures |g.balls| <= MaxBalls ==> |r.balls| <= MaxBalls
    // Longer paddle: half a unit of length multiplier, saturating at 2.5.
    ensures color == LongerPaddleColor && g.counters.longerPaddle < MaxLongerPaddlePowerUp ==>
      r == g.(paddle := g.paddle.(lengthMultiplier := Min(g.paddle.lengthMultiplier + 0.5, MaxLengthMultiplier)),
              counters := g.counters.(longerPaddle := g.counters.longerPaddle + 1))
  {
    var c := g.counters;
    var first := g.balls[0];
    if color == SpeedColor && c.speed < MaxSpeedPowerUp then
      g.(balls := g.balls[0 := first.(speedMultiplier := Min(first.speedMultiplier + 0.5, MaxSpeedMultiplier))],
         counters := c.(speed := c.speed + 1))
    else if color == MultiBallColor && c.multiBall < MaxMultiBallPowerUp then
      if |g.balls| < MaxBalls then
        g.(balls := g.balls + [first.(dx := -first.dx, dy := -first.dy)],
           counters := c.(multiBall := c.multiBall + 1))
      else g
    else if color == LongerPaddleColor && c.longerPaddle < MaxLongerPaddlePowerUp then
      g.(paddle := g.paddle.(lengthMultiplier := Min(g.paddle.lengthMultiplier + 0.5, MaxLengthMultiplier)),
         counters := c.(longerPaddle := c.longerPaddle + 1))
    else g
  }

  /** The plain blue of the palette is no power-up at all. */
  lemma BlueIsNoPowerUp(g: Game)
    requires 0 < |g.balls|
    ensures HandlePowerUp(g, Blue) == g
  {
  }

  /** handlePowerUp keeps the session invariant: counters within their caps,
      one ball per applied multi-ball plus the first, at most four balls,
      speed multipliers in [1, 2] and the paddle multiplier equal to
      1 + 0.5 per applied longer-paddle power-up. */
  lemma HandlePowerUpValid(g: Game, color: string)
    requires Valid(g)
    ensures Valid(HandlePowerUp(g, color))
  {
    var r := HandlePowerUp(g, color);
    if color == SpeedColor && g.counters.speed < MaxSpeedPowerUp {
      assert forall j :: 0 <= j < |r.balls| ==> 1.0 <= r.balls[j].speedMultiplier <= MaxSpeedMultiplier;
    } else if color == MultiBallColor && g.counters.multiBall < MaxMultiBallPowerUp {
      assert forall j :: 0 <= j < |r.balls| ==> 1.0 <= r.balls[j].speedMultiplier <= MaxSpeedMultiplier;
    }
  }

  /** handlePowerUp never looks at or changes the phase. */
  lemma HandlePowerUpIgnoresPhase(g: Game, color: string, p: Phase)
    requires 0 < |g.balls|
    ensures HandlePowerUp(g.(phase := p), color) == HandlePowerUp(g, color).(phase := p)
  {
  }
}

=== FILE: shooter.dfy ===
/** The top-down shooter (shooter.js, and the games.shooter object of
    combined.js, which adds the pause flag and the gameOver flag). One frame
    moves the bullets, enemies and particles, resolves bullet/enemy hits,
    polls the clocks and moves the player. */
module Shooter {
  import opened Common
  import opened Geometry
  import opened ShooterClock
  import opened ForEachSplice

  const PlayerSize: real := 20.0
  const PlayerSpeed: real := 5.0
  const BulletWidth: real := 5.0
  const BulletHeight: real := 10.0
  const BulletSpeed: real := 7.0
  const EnemySize: real := 20.0
  const EnemySpeed: real := 2.0
  const ExplosionSize: nat := 20
  const ParticleLife: int := 20
  const HitScore: nat := 10
  const TargetScore: nat := 900
  /** Each particle draws Math.random() three times: size, dx, dy. */
  const DrawsPerExplosion: nat := 3 * ExplosionSize

  /** The player's top-left corner and current velocity. */
  datatype Player = Player(x: real, y: real, dx: real, dy: real)

  /** An explosion particle; its colour is always orange and only drawn. */
  datatype Particle = Particle(x: real, y: real, size: real, dx: real, dy: real, life: int)

  /** Ended(win) replaces endGame's alert (and, in shooter.js, the reload). */
  datatype Outcome = Running | Ended(win: bool)

  datatype Session = Session(
    player: Player,
    bullets: seq<Rect>,
    enemies: seq<Rect>,
    particles: seq<Particle>,
    score: nat,
    startTime: int,
    countdownActive: bool,
    countdownStartTime: int,
    outcome: Outcome,
    paused: bool)
  {
    predicate GameOver()
    {
      outcome.Ended?
    }
  }

  /** endGame(win): the session is over. The first call of a session decides
      the recorded outcome; a later call only repeats an alert. */
  function EndGame(o: Outcome, win: bool): (r: Outcome)
    ensures r.Ended?
    ensures o.Running? ==> r == Ended(win)
    ensures o.Ended? ==> r == o
  {
    if o.Running? then Ended(win) else o
  }

  // ---------------------------------------------------------------- pools

  /** One bullet of the bullet pass: up by its speed, removed above the top. */
  function MoveBullet(b: Rect): (r: Option<Rect>)
    ensures r.None? <==> b.y < BulletSpeed
    ensures r.Some? ==> r.value == b.(y := b.y - BulletSpeed) && 0.0 <= r.value.y
  {
    var m := b.(y := b.y - BulletSpeed);
    if m.y < 0.0 then None else Some(m)
  }

  /** One enemy of the enemy pass: down by its speed, removed below the
      bottom edge. */
  function MoveEnemy(e: Rect, H: real): (r: Option<Rect>)
    ensures r.None? <==> H - EnemySpeed < e.y
    ensures r.Some? ==> r.value == e.(y := e.y + EnemySpeed) && r.value.y <= H
  {
    var m := e.(y := e.y + EnemySpeed);
    if m.y > H then None else Some(m)
  }

  /** One particle of the particle pass: drifts, loses a unit of life, and is
      removed once its life is used up. */
  function DecayParticle(p: Particle): (r: Option<Particle>)
    ensures r.None? <==> p.life <= 1
    ensures r.Some? ==>
      && r.value.life == p.life - 1 && r.value.size == p.size
      && r.value.x == p.x + p.dx && r.value.y == p.y + p.dy
  {
    var m := p.(x := p.x + p.dx, y := p.y + p.dy, life := p.life - 1);
    if m.life <= 0 then None else Some(m)
  }

  /** After the bullet pass every bullet is either one the pass skipped,
      unchanged, or a visited bullet exactly 7 higher and not above the top. */
  lemma BulletPass(bs: seq<Rect>)
    ensures forall b :: b in Pass(bs, MoveBullet) ==>
      (exists i :: 0 <= i < |bs| &&
        (  (Visited(bs, MoveBullet)[i] && b == bs[i].(y := bs[i].y - BulletSpeed) && 0.0 <= b.y)
        || (!Visited(bs, MoveBullet)[i] && b == bs[i])))
  {
    PassSurvivors(bs, MoveBullet);
  }

  /** After the enemy pass every enemy is either one the pass skipped,
      unchanged, or a visited enemy exactly 2 lower and not below the bottom. */
  lemma EnemyPass(es: seq<Rect>, H: real)
    ensures var visit := (e: Rect) => MoveEnemy(e, H);
      forall e :: e in Pass(es, visit) ==>
      (exists i :: 0 <= i < |es| &&
        (  (Visited(es, visit)[i] && e == es[i].(y := es[i].y + EnemySpeed) && e.y <= H)
        || (!Visited(es, visit)[i] && e == es[i])))
  {
    PassSurvivors(es, (e: Rect) => MoveEnemy(e, H));
  }

  /** p is what one decay step makes of p0 while some life is left. */
  predicate Decayed(p0: Particle, p: Particle)
  {
    && p.life == p0.life - 1 && 0 < p.life
    && p.x == p0.x + p0.dx && p.y == p0.y + p0.dy
  }

  /** After the particle pass every particle is either one the pass skipped,
      unchanged, or a visited particle with exactly one unit of life less and
      some life left. */
  lemma ParticlePass(ps: seq<Particle>)
    ensures forall p :: p in Pass(ps, DecayParticle) ==>
      (exists i :: 0 <= i < |ps| &&
        (  (Visited(ps, DecayParticle)[i] && Decayed(ps[i], p))
        || (!Visited(ps, DecayParticle)[i] && p == ps[i])))
  {
    var v := Visited(ps, DecayParticle);
    PassSurvivors(ps, DecayParticle);
    forall p | p in Pass(ps, DecayParticle)
      ensures exists i :: 0 <= i < |ps| && ((v[i] && Decayed(ps[i], p)) || (!v[i] && p == ps[i]))
    {
      var i :| 0 <= i < |ps| && ((v[i] && DecayParticle(ps[i]) == Some(p)) || (!v[i] && ps[i] == p));
      if v[i] && DecayParticle(ps[i]) == Some(p) {
        assert Decayed(ps[i], p);
      }
    }
  }

  // ---------------------------------------------------------------- spawning

  /** createExplosion(x, y): twenty particles at (x, y), each drawing its
      size, dx and dy from the random stream starting at draw c. */
  function Explosion(x: real, y: real, rng: Rng, c: nat): (ps: seq<Particle>)
    ensures |ps| == ExplosionSize
    ensures forall j :: 0 <= j < |ps| ==> ps[j].x == x && ps[j].y == y && ps[j].life == ParticleLife
    ensures ValidRng(rng) ==> forall j :: 0 <= j < |ps| ==> Spark(ps[j])
  {
    seq(ExplosionSize, i requires 0 <= i < ExplosionSize =>
      Particle(x, y,
               rng(c + 3 * i) * 5.0 + 2.0,
               (rng(c + 3 * i + 1) - 0.5) * 2.0,
               (rng(c + 3 * i + 2) - 0.5) * 2.0,
               ParticleLife))
  }

  /** A freshly made particle: full life, size in [2, 7), velocity in [-1, 1). */
  predicate Spark(p: Particle)
  {
    && p.life == ParticleLife
    && 2.0 <= p.size < 7.0
    && -1.0 <= p.dx < 1.0
    && -1.0 <= p.dy < 1.0
  }

  /** spawnEnemy: one enemy at the top edge at a random x; nothing once the
      game is over or paused. */
  function SpawnEnemy(s: Session, W: real, r: real): (s': Session)
    ensures s.GameOver() || s.paused ==> s' == s
    ensures !(s.GameOver() || s.paused) ==>
      && |s'.enemies| == |s.enemies| + 1
      && s' == s.(enemies := s.enemies + [s'.enemies[|s.enemies|]])
      && var e := s'.enemies[|s.enemies|];
         && e.y == 0.0 && e.w == EnemySize && e.h == EnemySize
         && (0.0 <= r < 1.0 && EnemySize < W ==> 0.0 <= e.x < W - EnemySize)
  {
    if s.GameOver() || s.paused then s
    else s.(enemies := s.enemies + [Rect(Scale(r, W - EnemySize), 0.0, EnemySize, EnemySize)])
  }

  /** shoot: a 5 by 10 bullet centred on the player's top edge. */
  function Shoot(s: Session): (s': Session)
    ensures |s'.bullets| == |s.bullets| + 1
    ensures s' == s.(bullets := s.bullets + [s'.bullets[|s.bullets|]])
    ensures var b := s'.bullets[|s.bullets|];
      && b.x + b.w / 2.0 == s.player.x + PlayerSize / 2.0
      && b.y == s.player.y && b.w == BulletWidth && b.h == BulletHeight
  {
    var p := s.player;
    s.(bullets := s.bullets + [Rect(p.x + PlayerSize / 2.0 - 2.5, p.y, BulletWidth, BulletHeight)])
  }

  // ---------------------------------------------------------------- collisions

  /** The centre of an enemy, where its explosion starts. */
  function CentreX(e: Rect): real { e.x + e.w / 2.0 }
  function CentreY(e: Rect): real { e.y + e.h / 2.0 }

  /** What a collision pass has done to s so far, in terms of the number of
      hits: only the pools, the score and the outcome change; each hit
      removed one enemy, at most one bullet, scored 10, appended 20 sparks at
      the centre of an enemy of the pass's start, and consumed 60 draws. */
  ghost predicate Accounted(s: Session, t: Session, c0: nat, c: nat, hits: nat)
  {
    && t == s.(bullets := t.bullets, enemies := t.enemies, particles := t.particles,
               score := t.score, outcome := t.outcome)
    && t.score == s.score + HitScore * hits
    && |t.enemies| + hits == |s.enemies|
    && |t.bullets| <= |s.bullets| <= |t.bullets| + hits
    && |t.particles| == |s.particles| + ExplosionSize * hits
    && t.particles[..|s.particles|] == s.particles
    && (forall j :: |s.particles| <= j < |t.particles| ==> Spark(t.particles[j]))
    && (forall j :: |s.particles| <= j < |t.particles| ==>
          exists e :: e in s.enemies && t.particles[j].x == CentreX(e) && t.particles[j].y == CentreY(e))
    && c == c0 + DrawsPerExplosion * hits
    && (forall e :: e in t.enemies ==> e in s.enemies)
    && (forall b :: b in t.bullets ==> b in s.bullets)
    && (hits == 0 ==> t == s)
    && (s.outcome.Ended? ==> t.outcome == s.outcome)
    && (t.outcome == s.outcome || (s.outcome == Running && t.outcome == Ended(true)))
    && (0 < hits && TargetScore <= t.score ==> t.outcome.Ended?)
    && (t.outcome != s.outcome ==> TargetScore <= t.score)
  }

  /** No bullet of bs overlaps any enemy of es. */
  ghost predicate NoPairMeets(bs: seq<Rect>, es: seq<Rect>)
  {
    forall i, j :: 0 <= i < |bs| && 0 <= j < |es| ==> !Overlaps(bs[i], es[j])
  }

  /** No overlap among the pairs of the pass's starting arrays that the
      nested loops have compared so far: bullets before bi against every
      enemy, and bullet bi against the enemies before ei. */
  ghost predicate ClearBefore(s: Session, bi: nat, ei: nat)
  {
    forall i, j :: 0 <= i < |s.bullets| && 0 <= j < |s.enemies| && (i < bi || (i == bi && j < ei)) ==>
      !Overlaps(s.bullets[i], s.enemies[j])
  }

  /** A bullet and an enemy of the arrays that overlap make a meeting pair. */
  lemma MeetingPair(bs: seq<Rect>, es: seq<Rect>, b: Rect, e: Rect)
    requires b in bs && e in es && Overlaps(b, e)
    ensures !NoPairMeets(bs, es)
  {
    var i :| 0 <= i < |bs| && bs[i] == b;
    var j :| 0 <= j < |es| && es[j] == e;
    assert Overlaps(bs[i], es[j]);
  }

  /** A miss extends the compared pairs by one; bullet bi compared with
      every enemy extends them by a whole row. */
  lemma ClearStep(s: Session, bi: nat, ei: nat)
    requires ClearBefore(s, bi, ei)
    ensures bi < |s.bullets| && ei < |s.enemies| && !Overlaps(s.bullets[bi], s.enemies[ei]) ==>
      ClearBefore(s, bi, ei + 1)
    ensures |s.enemies| <= ei ==> ClearBefore(s, bi + 1, 0)
  {
  }

  /** The body of the hit branch: both arrays lose the entry at their
      index, the score rises by 10, an explosion starts at the enemy's centre
      from draw c, and reaching the target ends the game won. */
  function Hit(t: Session, bi: nat, ei: nat, rng: Rng, c: nat): Session
    requires ei < |t.enemies|
  {
    var enemy := t.enemies[ei];
    var score := t.score + HitScore;
    t.(bullets := Splice(t.bullets, bi), enemies := Splice(t.enemies, ei), score := score,
       particles := t.particles + Explosion(CentreX(enemy), CentreY(enemy), rng, c),
       outcome := if score >= TargetScore then EndGame(t.outcome, true) else t.outcome)
  }

  /** checkCollisions, as the nested forEach loops run it: every bullet that
      is still at its index is compared with every enemy still at its index.
      A hit happens exactly when some bullet overlaps some enemy of the
      frame. */
  method CheckCollisions(s: Session, rng: Rng, c0: nat) returns (r: Session, c: nat, ghost hits: nat)
    requires ValidRng(rng)
    ensures r == s.(bullets := r.bullets, enemies := r.enemies, particles := r.particles,
                    score := r.score, outcome := r.outcome)
    ensures Accounted(s, r, c0, c, hits)
    ensures hits == 0 ==> r == s && c == c0
    ensures hits == 0 <==> NoPairMeets(s.bullets, s.enemies)
  {
    r, c, hits := s, c0, 0;
    var n := |s.bullets|;
    var bi := 0;
    while bi < n
      invariant bi <= n == |s.bullets|
      invariant Accounted(s, r, c0, c, hits)
      invariant hits == 0 ==> ClearBefore(s, bi, 0)
      invariant 0 < hits ==> !NoPairMeets(s.bullets, s.enemies)
    {
      if bi < |r.bullets| {
        r, c, hits := CheckBullet(s, r, rng, c0, c, hits, bi);
      }
      bi := bi + 1;
    }
  }

  /** The inner forEach for the bullet at index bi: it is compared with
      every enemy still at its index. After a hit the loop goes on testing
      the removed bullet, and a second hit splices whatever bullet now sits
      at index bi, or nothing when the index is past the end. */
  method CheckBullet(s: Session, t: Session, rng: Rng, c0: nat, c: nat, ghost hits: nat, bi: nat)
    returns (t': Session, c': nat, ghost hits': nat)
    requires ValidRng(rng)
    requires Accounted(s, t, c0, c, hits)
    requires bi < |t.bullets|
    requires hits == 0 ==> ClearBefore(s, bi, 0)
    requires 0 < hits ==> !NoPairMeets(s.bullets, s.enemies)
    ensures Accounted(s, t', c0, c', hits') && hits <= hits'
    ensures hits' == 0 ==> ClearBefore(s, bi + 1, 0)
    ensures 0 < hits' ==> !NoPairMeets(s.bullets, s.enemies)
    ensures hits' == hits ==> t' == t && c' == c
    ensures t' == t.(bullets := t'.bullets, enemies := t'.enemies, particles := t'.particles,
                     score := t'.score, outcome := t'.outcome)
    ensures |t'.enemies| <= |t.enemies|
    ensures t'.score == t.score + HitScore * (|t.enemies| - |t'.enemies|)
    ensures c' == c + DrawsPerExplosion * (|t.enemies| - |t'.enemies|)
  {
    var bullet := t.bullets[bi];
    var m := |t.enemies|;
    t', c', hits' := t, c, hits;
    var ei := 0;
    while ei < m
      invariant ei <= m
      invariant Accounted(s, t', c0, c', hits') && hits <= hits'
      invariant bullet in s.bullets
      invariant hits' == 0 ==> m == |s.enemies| && bullet == s.bullets[bi] && ClearBefore(s, bi, ei)
      invariant 0 < hits' ==> !NoPairMeets(s.bullets, s.enemies)
      invariant hits' == hits ==> t' == t && c' == c
    {
      if ei < |t'.enemies| {
        var enemy := t'.enemies[ei];
        if hits' == 0 {
          ClearStep(s, bi, ei);
        }
        if Overlaps(bullet, enemy) {
          MeetingPair(s.bullets, s.enemies, bullet, enemy);
          CollisionStep(s, t', c0, c', hits', bi, ei, rng);
          t' := Hit(t', bi, ei, rng, c');
          c' := c' + DrawsPerExplosion;
          hits' := hits' + 1;
        }
      }
      ei := ei + 1;
    }
    if hits' == 0 {
      ClearStep(s, bi, ei);
    }
    AccountedDelta(s, t, c0, c, hits, t', c', hits');
  }

  /** Between two points of one collision pass, the hits in between show as
      removed enemies, each worth 10 points and 60 draws, and nothing outside
      the pools, score and outcome changes. */
  lemma AccountedDelta(s: Session, t: Session, c0: nat, c: nat, hits: nat, t': Session, c': nat, hits': nat)
    requires Accounted(s, t, c0, c, hits) && Accounted(s, t', c0, c', hits') && hits <= hits'
    ensures t' == t.(bullets := t'.bullets, enemies := t'.enemies, particles := t'.particles,
                     score := t'.score, outcome := t'.outcome)
    ensures |t'.enemies| + (hits' - hits) == |t.enemies|
    ensures t'.score == t.score + HitScore * (|t.enemies| - |t'.enemies|)
    ensures c' == c + DrawsPerExplosion * (|t.enemies| - |t'.enemies|)
  {
  }

  /** One hit keeps the accounting: the step from `hits` to `hits + 1`. */
  lemma CollisionStep(s: Session, t: Session, c0: nat, c: nat, hits: nat, bi: nat, ei: nat, rng: Rng)
    requires ValidRng(rng)
    requires Accounted(s, t, c0, c, hits)
    requires ei < |t.enemies|
    ensures Accounted(s, Hit(t, bi, ei, rng, c), c0, c + DrawsPerExplosion, hits + 1)
  {
    var enemy := t.enemies[ei];
    var ex := Explosion(CentreX(enemy), CentreY(enemy), rng, c);
    var ps := t.particles + ex;
    SpliceSubset(t.bullets, bi);
    SpliceSubset(t.enemies, ei);
    assert enemy in s.enemies;
    assert ps[..|s.particles|] == s.particles by {
      assert ps[..|t.particles|] == t.particles;
    }
    forall j | |s.particles| <= j < |ps|
      ensures Spark(ps[j])
      ensures exists e :: e in s.enemies && ps[j].x == CentreX(e) && ps[j].y == CentreY(e)
    {
      if j >= |t.particles| {
        assert ps[j] == ex[j - |t.particles|];
      } else {
        assert ps[j] == t.particles[j];
      }
    }
  }

  // ---------------------------------------------------------------- clocks

  /** startCountdown */
  function StartCountdown(s: Session, now: int): Session
  {
    s.(countdownActive := true, countdownStartTime := now)
  }

  /** continueGame: the countdown is dismissed and the game timer restarts. */
  function ContinueGame(s: Session, now: int): (s': Session)
    ensures !s'.countdownActive
    ensures Remaining(GameTime, now - s'.startTime) == GameTime
    ensures s' == s.(countdownActive := false, startTime := now)
  {
    s.(countdownActive := false, startTime := now)
  }

  /** The clock step of a frame: drawCountdown while the countdown runs,
      drawTimer otherwise. */
  function Clock(s: Session, now: int): (s': Session)
    ensures !s.countdownActive && Remaining(GameTime, now - s.startTime) == 0 ==>
      s' == s.(countdownActive := true, countdownStartTime := now)
    ensures !s.countdownActive && Remaining(GameTime, now - s.startTime) > 0 ==> s' == s
    ensures s.countdownActive && Remaining(CountdownTime, now - s.countdownStartTime) == 0 ==>
      s' == s.(outcome := EndGame(s.outcome, false))
    ensures s.countdownActive && Remaining(CountdownTime, now - s.countdownStartTime) > 0 ==> s' == s
  {
    if s.countdownActive then
      if Remaining(CountdownTime, now - s.countdownStartTime) <= 0 then s.(outcome := EndGame(s.outcome, false))
      else s
    else if Remaining(GameTime, now - s.startTime) <= 0 && !s.countdownActive then StartCountdown(s, now)
    else s
  }

  // ---------------------------------------------------------------- player

  /** newPos: move by the velocity, then the four boundary checks. */
  function NewPos(p: Player, W: real, H: real): (q: Player)
    ensures q.dx == p.dx && q.dy == p.dy
    ensures PlayerSize <= W ==> 0.0 <= q.x <= W - PlayerSize
    ensures PlayerSize <= H ==> 0.0 <= q.y <= H - PlayerSize
    ensures 0.0 <= p.x + p.dx <= W - PlayerSize ==> q.x == p.x + p.dx
    ensures 0.0 <= p.y + p.dy <= H - PlayerSize ==> q.y == p.y + p.dy
  {
    p.(x := ClampSpan(p.x + p.dx, PlayerSize, W), y := ClampSpan(p.y + p.dy, PlayerSize, H))
  }

  predicate IsArrow(key: string)
  {
    key in {"ArrowRight", "Right", "ArrowLeft", "Left", "ArrowUp", "Up", "ArrowDown", "Down"}
  }

  /** keyDown: arrows set the velocity, space shoots, and Enter continues
      while the countdown runs. Space is caught by the shooting branch first,
      so it never continues the game. */
  function KeyDown(s: Session, key: string, now: int): (s': Session)
    ensures key == "ArrowRight" || key == "Right" ==> s' == s.(player := s.player.(dx := PlayerSpeed))
    ensures key == "ArrowLeft" || key == "Left" ==> s' == s.(player := s.player.(dx := -PlayerSpeed))
    ensures key == "ArrowUp" || key == "Up" ==> s' == s.(player := s.player.(dy := -PlayerSpeed))
    ensures key == "ArrowDown" || key == "Down" ==> s' == s.(player := s.player.(dy := PlayerSpeed))
    ensures key == " " || key == "Spacebar" ==> s' == Shoot(s)
    ensures key == "Enter" && s.countdownActive ==> s' == ContinueGame(s, now)
    ensures !IsArrow(key) && key !in {" ", "Spacebar", "Enter"} ==> s' == s
    ensures key == "Enter" && !s.countdownActive ==> s' == s
  {
    if key == "ArrowRight" || key == "Right" then s.(player := s.player.(dx := PlayerSpeed))
    else if key == "ArrowLeft" || key == "Left" then s.(player := s.player.(dx := -PlayerSpeed))
    else if key == "ArrowUp" || key == "Up" then s.(player := s.player.(dy := -PlayerSpeed))
    else if key == "ArrowDown" || key == "Down" then s.(player := s.player.(dy := PlayerSpeed))
    else if key == " " || key == "Spacebar" then Shoot(s)
    else if s.countdownActive && (key == "Enter" || key == " ") then ContinueGame(s, now)
    else s
  }

  /** keyUp: releasing any arrow stops the player on both axes. */
  function KeyUp(s: Session, key: string): (s': Session)
    ensures IsArrow(key) ==> s' == s.(player := s.player.(dx := 0.0, dy := 0.0))
    ensures !IsArrow(key) ==> s' == s
  {
    if IsArrow(key) then s.(player := s.player.(dx := 0.0, dy := 0.0)) else s
  }

  /** The only key that dismisses the countdown is Enter, and only while the
      countdown runs; a dismissed countdown restarts the full game timer. */
  lemma OnlyEnterContinues(s: Session, key: string, now: int)
    ensures var s' := KeyDown(s, key, now);
      s.countdownActive && !s'.countdownActive <==> key == "Enter" && s.countdownActive
    ensures key == "Enter" && s.countdownActive ==>
      Remaining(GameTime, now - KeyDown(s, key, now).startTime) == GameTime
  {
  }

  // ---------------------------------------------------------------- frame

  /** update: one frame. Nothing happens once the game is over or while it is
      paused. Otherwise the bullets, enemies and particles passes run, then
      the collisions, then the clock, then the player moves. */
  method Update(s: Session, W: real, H: real, now: int, rng: Rng, c: nat) returns (r: Session, c': nat)
    requires ValidRng(rng)
    ensures s.GameOver() || s.paused ==> r == s && c' == c
    ensures r.paused == s.paused
    // Bullets and enemies only move or disappear during a frame.
    ensures forall b :: b in r.bullets ==> b in s.bullets || b in Pass(s.bullets, MoveBullet)
    ensures forall e :: e in r.enemies ==> e in s.enemies || e in Pass(s.enemies, (e: Rect) => MoveEnemy(e, H))
    ensures |r.bullets| <= |s.bullets| && |r.enemies| <= |s.enemies|
    // Without enemies nothing is hit: no score, no new particles, no win.
    ensures s.enemies == [] ==> c' == c && r.score == s.score && r.enemies == [] && r.bullets == (if s.GameOver() || s.paused then s.bullets else Pass(s.bullets, MoveBullet))
    ensures s.enemies == [] && !(s.GameOver() || s.paused) ==> r.particles == Pass(s.particles, DecayParticle)
    // Without a point scored, only an expired countdown ends the game.
    ensures r.score == s.score && !(s.countdownActive && Remaining(CountdownTime, now - s.countdownStartTime) == 0) ==>
      r.outcome == s.outcome
    // A running frame scores exactly when, after the passes, some bullet
    // overlaps some enemy.
    ensures !(s.GameOver() || s.paused) ==>
      (r.score == s.score <==> NoPairMeets(Pass(s.bullets, MoveBullet), Pass(s.enemies, (e: Rect) => MoveEnemy(e, H))))
    ensures !s.countdownActive && Remaining(GameTime, now - s.startTime) > 0 ==> !r.countdownActive
    ensures s.score <= r.score && (r.score - s.score) % HitScore == 0
    ensures s.outcome.Ended? ==> r.outcome == s.outcome
    ensures s.outcome.Running? && s.score < r.score && TargetScore <= r.score ==> r.outcome == Ended(true)
    ensures s.outcome.Running? && r.outcome == Ended(true) ==> TargetScore <= r.score
    ensures !(s.GameOver() || s.paused) ==>
      && (PlayerSize <= W ==> 0.0 <= r.player.x <= W - PlayerSize)
      && (PlayerSize <= H ==> 0.0 <= r.player.y <= H - PlayerSize)
      && (!s.countdownActive && Remaining(GameTime, now - s.startTime) == 0 ==>
            r.countdownActive && r.countdownStartTime == now)
      && (s.countdownActive && Remaining(CountdownTime, now - s.countdownStartTime) == 0 ==> r.GameOver())
      && (s.countdownActive && Remaining(CountdownTime, now - s.countdownStartTime) > 0 ==>
            r.countdownActive && r.countdownStartTime == s.countdownStartTime)
      && r.startTime == s.startTime
    // A running frame: the player takes its newPos step, the bullets and
    // enemies left are survivors of their passes, and the particle pass
    // comes first in the particles, before any new sparks.
    ensures !(s.GameOver() || s.paused) ==>
      && r.player == NewPos(s.player, W, H)
      && (forall b :: b in r.bullets ==> b in Pass(s.bullets, MoveBullet))
      && (forall e :: e in r.enemies ==> e in Pass(s.enemies, (e: Rect) => MoveEnemy(e, H)))
      && var ps := Pass(s.particles, DecayParticle);
         |ps| <= |r.particles| && r.particles[..|ps|] == ps
  {
    if s.GameOver() || s.paused {
      return s, c;
    }
    var bullets, _ := Run(s.bullets, MoveBullet);
    var enemies, _ := Run(s.enemies, (e: Rect) => MoveEnemy(e, H));
    var particles, _ := Run(s.particles, DecayParticle);
    var s1 := s.(bullets := bullets, enemies := enemies, particles := particles);
    var s2;
    ghost var hits: nat;
    s2, c', hits := CheckCollisions(s1, rng, c);
    var s3 := Clock(s2, now);
    r := s3.(player := NewPos(s3.player, W, H));
  }

  /** The state init() builds before its first update. */
  function Fresh(s: Session, W: real, H: real, now: int): Session
  {
    s.(player := Player(W / 2.0, H / 2.0, 0.0, 0.0), bullets := [], enemies := [], particles := [],
       score := 0, startTime := now, outcome := Running, paused := false, countdownActive := false)
  }

  /** init / restart: a fresh session followed by its first update; all pools
      empty, score zero, and no flag set. */
  method Init(s: Session, W: real, H: real, now: int, rng: Rng, c: nat) returns (r: Session, c': nat)
    requires ValidRng(rng)
    ensures r.bullets == [] && r.enemies == [] && r.particles == []
    ensures r.score == 0 && r.outcome == Running && !r.paused && !r.countdownActive
    ensures r.startTime == now && c' == c
  {
    var f := Fresh(s, W, H, now);
    r, c' := Update(f, W, H, now, rng, c);
    assert Pass([], MoveBullet) == [];
  }

  /** togglePause: flips the flag; unpausing runs an update at once, which
      also restarts the frame loop. */
  method TogglePause(s: Session, W: real, H: real, now: int, rng: Rng, c: nat) returns (r: Session, c': nat)
    requires ValidRng(rng)
    ensures r.paused == !s.paused
    ensures !s.paused ==> r == s.(paused := true) && c' == c
    ensures s.paused && s.GameOver() ==> r == s.(paused := false) && c' == c
    // Whichever way it goes, the score and outcome rules of a frame hold.
    ensures s.score <= r.score && (r.score - s.score) % HitScore == 0
    ensures s.outcome.Ended? ==> r.outcome == s.outcome
    ensures s.outcome.Running? && s.score < r.score && TargetScore <= r.score ==> r.outcome == Ended(true)
    ensures s.outcome.Running? && r.outcome == Ended(true) ==> TargetScore <= r.score
    // Resuming a running game plays one frame at once.
    ensures s.paused && !s.GameOver() ==>
      && (r.score == s.score && !(s.countdownActive && Remaining(CountdownTime, now - s.countdownStartTime) == 0) ==>
            r.outcome == s.outcome)
      && (r.score == s.score <==> NoPairMeets(Pass(s.bullets, MoveBullet), Pass(s.enemies, (e: Rect) => MoveEnemy(e, H))))
      && r.player == NewPos(s.player, W, H)
      && r.startTime == s.startTime
      && (forall b :: b in r.bullets ==> b in Pass(s.bullets, MoveBullet))
      && (forall e :: e in r.enemies ==> e in Pass(s.enemies, (e: Rect) => MoveEnemy(e, H)))
      && var ps := Pass(s.particles, DecayParticle);
         |ps| <= |r.particles| && r.particles[..|ps|] == ps
  {
    var t := s.(paused := !s.paused);
    if !t.paused {
      r, c' := Update(t, W, H, now, rng, c);
    } else {
      r, c' := t, c;
    }
  }

  /** A bullet overlapping the only enemy is a hit: the enemy is gone, the
      score rises by exactly 10, and 20 new sparks start at the enemy's
      centre. */
  method BulletMeetsEnemy(s: Session, rng: Rng, c0: nat) returns (r: Session, c: nat)
    requires ValidRng(rng)
    requires |s.bullets| == 1 && |s.enemies| == 1 && Overlaps(s.bullets[0], s.enemies[0])
    ensures r.enemies == [] && r.score == s.score + HitScore
    ensures |r.particles| == |s.particles| + ExplosionSize && c == c0 + DrawsPerExplosion
    ensures r.particles[..|s.particles|] == s.particles
    ensures forall j :: |s.particles| <= j < |r.particles| ==>
      && Spark(r.particles[j])
      && r.particles[j].x == CentreX(s.enemies[0]) && r.particles[j].y == CentreY(s.enemies[0])
  {
    ghost var hits;
    r, c, hits := CheckCollisions(s, rng, c0);
    assert hits != 0 by {
      assert !NoPairMeets(s.bullets, s.enemies);
    }
  }
}

=== FILE: shooter_clock.dfy ===
/** The shooter's two clocks: the three-minute game timer and the ten-second
    "Continue?" countdown that follows it. Both are polled once a frame
    against a timestamp the caller passes in (Date.now() in the source). */
module ShooterClock {
  import opened Common
  import opened Decimal

  const GameTime: int := 3 * 60 * 1000
  const CountdownTime: int := 10 * 1000
  const MillisPerMinute: nat := 60000
  const MillisPerSecond: nat := 1000

  /** Math.max(total - elapsed, 0). */
  function Remaining(total: int, elapsed: int): (r: nat)
    ensures r == 0 <==> total <= elapsed
    ensures 0 < r ==> r == total - elapsed
    ensures 0 <= elapsed && 0 <= total ==> r <= total
    ensures elapsed <= 0 ==> r >= total
  {
    MaxInt(total - elapsed, 0)
  }

  /** Whole minutes and the seconds left over, as drawTimer splits them. */
  function Minutes(rem: nat): nat
  {
    rem / MillisPerMinute
  }

  function Seconds(rem: nat): (s: nat)
    ensures s < 60
  {
    (rem % MillisPerMinute) / MillisPerSecond
  }

  /** The timer text "m:ss". */
  function TimerText(rem: nat): string
  {
    Show(Minutes(rem)) + ":" + Padded(Seconds(rem))
  }

  /** The countdown text "0:ss" (ss is 10 at the very start). */
  function CountdownText(rem: nat): string
  {
    "0:" + Padded(rem / MillisPerSecond)
  }

  /** The timer text reads back as the minutes and the seconds that make up
      the remaining time, the seconds always as two digits below 60. */
  lemma TimerTextReadsBack(rem: nat)
    ensures var t := TimerText(rem);
      && 4 <= |t|
      && t[|t| - 3] == ':'
      && AllDigits(t[..|t| - 3]) && Value(t[..|t| - 3]) == Minutes(rem)
      && AllDigits(t[|t| - 2..]) && Value(t[|t| - 2..]) == Seconds(rem) < 60
      && Minutes(rem) * MillisPerMinute + Seconds(rem) * MillisPerSecond <= rem
      && rem < Minutes(rem) * MillisPerMinute + Seconds(rem) * MillisPerSecond + MillisPerSecond
  {
    var m := Show(Minutes(rem));
    var s := Padded(Seconds(rem));
    var t := TimerText(rem);
    assert t == m + ":" + s;
    assert t[..|t| - 3] == m;
    assert t[|t| - 2..] == s;
    ValueShow(Minutes(rem));
  }

  /** With the timer just restarted the text shows the full three minutes. */
  lemma FullTimerText()
    ensures TimerText(Remaining(GameTime, 0)) == "3:00"
  {
    assert Show(3) == "3";
    assert Show(0) == "0";
  }

  /** The countdown text reads back as the whole seconds remaining. */
  lemma CountdownTextReadsBack(rem: nat)
    requires rem <= CountdownTime
    ensures var t := CountdownText(rem);
      && |t| == 4 && t[..2] == "0:"
      && Value(t[2..]) == rem / MillisPerSecond <= 10
  {
    var t := CountdownText(rem);
    assert t[2..] == Padded(rem / MillisPerSecond);
  }
}

=== FILE: typing.dfy ===
/** The typing shooter (typingShooter.js, and the games.typingShooter object
    of combined.js, which adds the pause flag). Words fall from the top; every
    key press strips its letter from each falling word that starts with it,
    and a word typed out completely leaves the screen and scores a point. */
module Typing {
  import opened Common
  import opened ForEachSplice

  const Vocabulary: seq<string> := ["cat", "dog", "bat", "rat", "hat", "mat", "sat", "pat", "fat", "vat"]
  const WordSpeed: int := 1
  const WordInterval: real := 2000.0
  const MaxWordLength: int := 8
  /** New words start at a random x in [0, canvas.width - 50). */
  const SpawnMargin: real := 50.0
  const WordsPerLevel: nat := 10
  const MillisPerSecond: int := 1000

  type Level = n: int | 1 <= n witness 1

  datatype Word = Word(text: string, x: real, y: real)

  datatype Session = Session(
    fallingWords: seq<Word>,
    typedWords: seq<string>,
    score: nat,
    level: Level,
    gameOver: bool,
    paused: bool,
    startTime: int,
    nextWordTime: real)
  {
    /** update and the key handler do nothing in these states. */
    predicate Frozen()
    {
      gameOver || paused
    }
  }

  /** The level goes up by one with every tenth point. */
  predicate LevelRule(s: Session)
  {
    s.level == 1 + s.score / WordsPerLevel
  }

  // ---------------------------------------------------------------- words

  /** The longest word getRandomWord accepts: three letters plus one per ten
      points, never more than eight. */
  function LengthLimit(score: nat): (n: int)
    ensures 3 <= n <= MaxWordLength
    ensures n == MaxWordLength || n == 3 + score / WordsPerLevel
    ensures n <= 3 + score / WordsPerLevel
  {
    var grown := 3 + score / WordsPerLevel;
    if grown <= MaxWordLength then grown else MaxWordLength
  }

  /** Every word of the vocabulary has three letters, so the length limit
      never rejects one and getRandomWord never draws a second time. */
  lemma EveryWordFits(score: nat)
    ensures forall w :: w in Vocabulary ==> |w| == 3 <= LengthLimit(score)
  {
  }

  /** getRandomWord with draw r: the word at index floor(r * 10). The redraw
      for an over-long word is not written out, because it cannot happen
      (EveryWordFits). */
  function RandomWord(score: nat, r: real): (w: string)
    requires 0.0 <= r < 1.0
    ensures w in Vocabulary
    ensures |w| <= LengthLimit(score)
  {
    EveryWordFits(score);
    Vocabulary[Pick(r, |Vocabulary|)]
  }

  /** Every falling word moves down by wordSpeed * level. */
  function Descend(ws: seq<Word>, level: Level): (r: seq<Word>)
    ensures |r| == |ws|
    ensures forall i :: 0 <= i < |ws| ==> r[i].text == ws[i].text && r[i].x == ws[i].x
    ensures forall i :: 0 <= i < |ws| ==> r[i].y > ws[i].y
  {
    seq(|ws|, i requires 0 <= i < |ws| => ws[i].(y := ws[i].y + (WordSpeed * level) as real))
  }

  /** The descent is the forEach of update over the falling words, a pass
      whose callback never splices: every word is visited and kept, moved. */
  lemma DescendIsPass(ws: seq<Word>, level: Level)
    ensures var fall := (w: Word) => Some(w.(y := w.y + (WordSpeed * level) as real));
      && Removed(ws, fall) == 0
      && Descend(ws, level) == Pass(ws, fall)
  {
    var fall := (w: Word) => Some(w.(y := w.y + (WordSpeed * level) as real));
    PassWithoutRemovals(ws, fall);
  }

  /** Some word has fallen past the bottom edge. */
  predicate Escaped(ws: seq<Word>, H: real)
  {
    exists i :: 0 <= i < |ws| && ws[i].y > H
  }

  // ---------------------------------------------------------------- frame

  /** update: one frame. When the spawn time has come a new word appears at
      the top (one draw for the word, one for its x) and the next spawn is
      wordInterval / level later; then every word falls by the level, and the
      game ends if any word has fallen past the bottom. */
  method Update(s: Session, W: real, H: real, now: int, rng: Rng, c: nat) returns (r: Session, c': nat)
    requires ValidRng(rng)
    ensures s.Frozen() ==> r == s && c' == c
    ensures !s.Frozen() ==>
      var spawned := now as real >= s.nextWordTime;
      && r == s.(fallingWords := r.fallingWords, gameOver := r.gameOver, nextWordTime := r.nextWordTime)
      && c' == c + (if spawned then 2 else 0)
      && |r.fallingWords| == |s.fallingWords| + (if spawned then 1 else 0)
      && (forall i :: 0 <= i < |s.fallingWords| ==>
            r.fallingWords[i] == s.fallingWords[i].(y := s.fallingWords[i].y + s.level as real))
      && (spawned ==>
            && var w := r.fallingWords[|s.fallingWords|];
            && w.text in Vocabulary && |w.text| <= LengthLimit(s.score)
            && w.y == s.level as real
            && (SpawnMargin < W ==> 0.0 <= w.x < W - SpawnMargin)
            && r.nextWordTime == now as real + WordInterval / s.level as real
            && 0.0 < r.nextWordTime - now as real <= WordInterval)
      && (!spawned ==> r.nextWordTime == s.nextWordTime)
      && (r.gameOver <==> Escaped(r.fallingWords, H))
  {
    if s.Frozen() {
      return s, c;
    }
    var words := s.fallingWords;
    var next := s.nextWordTime;
    c' := c;
    if now as real >= s.nextWordTime {
      var text := RandomWord(s.score, rng(c'));
      var x := Scale(rng(c' + 1), W - SpawnMargin);
      c' := c' + 2;
      words := words + [Word(text, x, 0.0)];
      next := now as real + WordInterval / s.level as real;
      assert WordInterval / s.level as real <= WordInterval by {
        assert WordInterval / s.level as real * s.level as real == WordInterval;
      }
    }
    words := Descend(words, s.level);
    r := s.(fallingWords := words, gameOver := Escaped(words, H), nextWordTime := next);
  }

  // ---------------------------------------------------------------- typing

  /** ASCII part of String.prototype.toLowerCase on one character. */
  function LowerChar(c: char): char
  {
    if 'A' <= c <= 'Z' then (c as int + 32) as char else c
  }

  /** Upper-case ASCII letters become their lower-case partners, every other
      character stays, and no upper-case ASCII letter is left. */
  function ToLower(s: string): (r: string)
    ensures |r| == |s|
    ensures forall i :: 0 <= i < |s| ==> !('A' <= r[i] <= 'Z')
    ensures forall i :: 0 <= i < |s| && 'A' <= s[i] <= 'Z' ==>
      'a' <= r[i] <= 'z' && r[i] as int - 'a' as int == s[i] as int - 'A' as int
    ensures forall i :: 0 <= i < |s| && !('A' <= s[i] <= 'Z') ==> r[i] == s[i]
  {
    seq(|s|, i requires 0 <= i < |s| => LowerChar(s[i]))
  }

  /** Lower-casing is idempotent, and leaves a lower-case letter alone. */
  lemma ToLowerIdempotent(s: string)
    ensures ToLower(ToLower(s)) == ToLower(s)
    ensures forall i :: 0 <= i < |s| ==> 'a' <= s[i] <= 'z' ==> ToLower(s)[i] == s[i]
  {
  }

  predicate StartsWith(t: string, k: string)
  {
    |k| <= |t| && t[..|k|] == k
  }

  /** The key handler's visit of one falling word: a word that starts with
      the key loses its first character (one character, however long the key
      is), and a word left empty is removed. */
  function Consume(key: string, w: Word): (r: Option<Word>)
    ensures !StartsWith(w.text, key) ==> r == Some(w)
    ensures StartsWith(w.text, key) && |w.text| <= 1 ==> r == None
    ensures StartsWith(w.text, key) && 1 < |w.text| ==>
      r == Some(w.(text := w.text[1..]))
  {
    if StartsWith(w.text, key) then
      var t := if |w.text| == 0 then w.text else w.text[1..];
      if |t| == 0 then None else Some(w.(text := t))
    else Some(w)
  }

  /** n copies of the empty string. The handler records a completed word by
      pushing its text after the last character was stripped, so every entry
      of typedWords is empty. */
  function Empties(n: nat): (r: seq<string>)
    ensures |r| == n
    ensures forall i :: 0 <= i < n ==> r[i] == ""
  {
    seq(n, _ => "")
  }

  /** The visit the key handler passes over the falling words. */
  function Visit(key: string): Word -> Option<Word>
  {
    (w: Word) => Consume(ToLower(key), w)
  }

  /** The effect of one key press as a whole: the splice pass over the falling
      words, and for each word completed an empty typed entry, a point, and a
      level whenever the score reaches a multiple of ten. */
  function KeyStroke(s: Session, key: string): (r: Session)
    ensures s.Frozen() ==> r == s
    ensures !s.Frozen() ==>
      var n := Removed(s.fallingWords, Visit(key));
      && r.fallingWords == Pass(s.fallingWords, Visit(key))
      && r.score == s.score + n
      && |r.fallingWords| + n == |s.fallingWords|
      && 2 * n <= |s.fallingWords| + 1
      && r.typedWords == s.typedWords + Empties(n)
      && r.level == s.level + r.score / WordsPerLevel - s.score / WordsPerLevel
      && r == s.(fallingWords := r.fallingWords, typedWords := r.typedWords, score := r.score, level := r.level)
    ensures LevelRule(s) ==> LevelRule(r)
  {
    if s.Frozen() then s
    else
      var n := Removed(s.fallingWords, Visit(key));
      PassLength(s.fallingWords, Visit(key));
      RemovedAtMostHalf(s.fallingWords, Visit(key));
      assert (s.score + n) / WordsPerLevel >= s.score / WordsPerLevel;
      s.(fallingWords := Pass(s.fallingWords, Visit(key)),
         typedWords := s.typedWords + Empties(n),
         score := s.score + n,
         level := s.level + (s.score + n) / WordsPerLevel - s.score / WordsPerLevel)
  }

  /** handleKeyDown: the forEach-with-splice pass over the falling words,
      then, per completed word in the order the pass completed them, the
      typed entry, the point and the level check. Nothing in the pass reads
      the score, the level or the typed list, so doing the bookkeeping after
      the pass gives the same state as doing it inside. */
  method KeyDown(s: Session, key: string) returns (r: Session)
    ensures r == KeyStroke(s, key)
  {
    if s.Frozen() {
      return s;
    }
    var words, removed := Run(s.fallingWords, Visit(key));
    var typed := s.typedWords;
    var score := s.score;
    var level: Level := s.level;
    var i := 0;
    while i < removed
      invariant 0 <= i <= removed
      invariant score == s.score + i
      invariant level == s.level + score / WordsPerLevel - s.score / WordsPerLevel
      invariant typed == s.typedWords + Empties(i)
    {
      typed := typed + [""];
      score := score + 1;
      if score % WordsPerLevel == 0 {
        level := level + 1;
      }
      i := i + 1;
    }
    r := s.(fallingWords := words, typedWords := typed, score := score, level := level);
  }

  /** Typing a sequence of keys, one KeyStroke each. */
  function TypeKeys(s: Session, keys: seq<string>): Session
    decreases |keys|
  {
    if keys == [] then s else TypeKeys(KeyStroke(s, keys[0]), keys[1..])
  }

  /** The keys that spell a text, one character each. */
  function Spell(t: string): (keys: seq<string>)
    ensures |keys| == |t|
    ensures forall i :: 0 <= i < |t| ==> keys[i] == [t[i]]
  {
    seq(|t|, i requires 0 <= i < |t| => [t[i]])
  }

  predicate LowerWord(t: string)
  {
    forall i :: 0 <= i < |t| ==> 'a' <= t[i] <= 'z'
  }

  /** With a single word on the screen, spelling it out removes it and scores
      exactly one point; the typed list gains one (empty) entry. */
  lemma {:induction false} SpellingTheOnlyWord(s: Session, w: Word)
    requires !s.Frozen()
    requires s.fallingWords == [w]
    requires 0 < |w.text| && LowerWord(w.text)
    ensures var r := TypeKeys(s, Spell(w.text));
      && r.fallingWords == []
      && r.score == s.score + 1
      && r.typedWords == s.typedWords + [""]
    decreases |w.text|
  {
    var t := w.text;
    var keys := Spell(t);
    var s1 := KeyStroke(s, keys[0]);
    assert ToLower(keys[0]) == [t[0]];
    assert StartsWith(t, [t[0]]);
    if |t| == 1 {
      assert s1.fallingWords == [];
      assert Removed(s.fallingWords, Visit(keys[0])) == 1;
      assert keys[1..] == [];
    } else {
      var w1 := w.(text := t[1..]);
      assert Removed(s.fallingWords, Visit(keys[0])) == 0;
      assert s1.fallingWords == [w1];
      assert s1.score == s.score && s1.typedWords == s.typedWords + [];
      assert keys[1..] == Spell(w1.text);
      SpellingTheOnlyWord(s1, w1);
    }
  }

  /** Two copies of a word typed down to the same last letter: the key press
      completes the first, the splice shifts the second into its index, and
      the pass never visits it, so it stays on the screen unchanged. */
  lemma TwinWordIsSkipped(s: Session, a: Word, b: Word)
    requires !s.Frozen()
    requires a.text == "t" && b.text == "t"
    requires s.fallingWords == [a, b]
    ensures KeyStroke(s, "t").fallingWords == [b]
    ensures KeyStroke(s, "t").score == s.score + 1
  {
    assert ToLower("t") == "t";
    assert StartsWith(a.text, "t");
    assert [a, b][1..] == [b];
  }

  // ---------------------------------------------------------------- session

  /** The game-over report: score, level, whole seconds since the start
      (rounded down), and the typed words joined by ", ". */
  datatype Report = Report(score: nat, level: Level, seconds: int, wordsTyped: string)

  function Join(ws: seq<string>, sep: string): string
  {
    if ws == [] then ""
    else if |ws| == 1 then ws[0]
    else Join(ws[..|ws| - 1], sep) + sep + ws[|ws| - 1]
  }

  /** endGame's report for a session ending at time now. */
  function GameReport(s: Session, now: int): (r: Report)
    ensures r.score == s.score && r.level == s.level
    ensures r.seconds * MillisPerSecond <= now - s.startTime < (r.seconds + 1) * MillisPerSecond
  {
    Report(s.score, s.level, (now - s.startTime) / MillisPerSecond, Join(s.typedWords, ", "))
  }

  /** Because every typed entry is empty, the report's word list holds only
      the separators: one ", " between each two completed words. */
  lemma {:induction false} JoinOfEmpties(n: nat, sep: string)
    requires 0 < n
    ensures |Join(Empties(n), sep)| == (n - 1) * |sep|
    ensures forall i :: 0 <= i < |Join(Empties(n), sep)| ==> Join(Empties(n), sep)[i] in sep
  {
    if n > 1 {
      JoinOfEmpties(n - 1, sep);
      assert Empties(n)[..n - 1] == Empties(n - 1);
      var j := Join(Empties(n - 1), sep);
      assert Join(Empties(n), sep) == j + sep + "";
    }
  }

  /** The state init (and restartGame) builds before its first update. */
  function Fresh(now: int): Session
  {
    Session([], [], 0, 1, false, false, now, now as real + WordInterval)
  }

  /** init / restart: a fresh session followed by its first update, which
      spawns nothing because the first word is due a full interval later. */
  method Init(W: real, H: real, now: int, rng: Rng, c: nat) returns (r: Session, c': nat)
    requires ValidRng(rng)
    ensures r.fallingWords == [] && r.typedWords == [] && r.score == 0 && r.level == 1
    ensures !r.gameOver && !r.paused && LevelRule(r)
    ensures r.startTime == now && r.nextWordTime == now as real + WordInterval && c' == c
  {
    r, c' := Update(Fresh(now), W, H, now, rng, c);
  }

  /** togglePause: flips the flag; unpausing runs an update at once. */
  method TogglePause(s: Session, W: real, H: real, now: int, rng: Rng, c: nat) returns (r: Session, c': nat)
    requires ValidRng(rng)
    ensures r.paused == !s.paused
    ensures !s.paused ==> r == s.(paused := true) && c' == c
    ensures s.paused && s.gameOver ==> r == s.(paused := false) && c' == c
    ensures LevelRule(s) ==> LevelRule(r)
    // Resuming a running game plays one frame at once: the words fall by the
    // level, at most one appears, and the game ends exactly when one escapes.
    ensures s.paused && !s.gameOver ==>
      && r == s.(paused := false, fallingWords := r.fallingWords, gameOver := r.gameOver,
                 nextWordTime := r.nextWordTime)
      && |s.fallingWords| <= |r.fallingWords| <= |s.fallingWords| + 1
      && (forall i :: 0 <= i < |s.fallingWords| ==>
            r.fallingWords[i] == s.fallingWords[i].(y := s.fallingWords[i].y + s.level as real))
      && (r.gameOver <==> Escaped(r.fallingWords, H))
  {
    var t := s.(paused := !s.paused);
    if !t.paused {
      r, c' := Update(t, W, H, now, rng, c);
    } else {
      r, c' := t, c;
    }
  }
}
